=== FILE: README.md ===
# gamechange-image in Dafny

A model of the decision logic of gamechange-image, a Next.js app. Signed-in
users generate or edit images with an image provider, store them in Google
Cloud Storage, and browse a paginated history. The model covers:

- **Storage adapter** (`uploadToGCS`, module `Storage`). It returns a public object URL, or an inline SVG placeholder when storage is unconfigured or the backend fails. It never fails. The bucket name is the one the storage library keeps, without a `gs://` scheme or trailing slashes.
- **Generation handler** (`handleImageGeneration` behind `POST /api/image/upload`, module `Generation`). It is a pure function over the outcomes of its outside calls: two storage uploads, the provider call, the download of the provider's image, and the database insert. These outcomes and the two fresh uuids are held in a `World`. The handler returns its response and the ordered list of calls it made.
- **History handler** (`handleHistory` behind `GET /api/image/history`, module `HistoryApi`). It reads the URL parameters, builds the `where` filter, orders by `createdAt` descending, skips and takes, and counts.
- **Auth middleware** (`verifyToken` and `withAuth`, module `Auth`). Bearer-header parsing and the gate in front of both routes, and the header as `fetch` delivers it from a page, with HTTP white space stripped from its ends. JWT verification is an oracle `verify(token, secret)`.
- **Login route** (module `Login`). The required-field check, the lookup in the fixed account table, and the token claims. JWT signing is an oracle `sign(claims, secret, expiresIn)`.
- **Generation page** (module `GeneratePage`). Mode switch, file and prompt inputs, the ordered checks before sending, the form sent, and how the answer is shown.
- **History page** (module `HistoryPage`). The query parameters sent, the previous/next buttons, the page counter, the filter form and how an answer is applied.
- **Flows** (module `Flows`). How the pages and routes fit together: a form the page sends as the route reads it after multipart encoding, the route's JSON as the page shows it, a login token presented back to the middleware, and paging against the history route.

The JavaScript built-ins the code relies on are modelled once, in module `Js`:

- `String.prototype.trim` with the ECMAScript white-space set;
- lower-casing;
- `startsWith`, `includes` and `substring`;
- `parseInt` of a decimal string and `String(n)`;
- `Math.ceil` of a quotient;
- `FormData.get`, and a `FormData` body's round trip through `multipart/form-data`, which turns every lone CR or LF in names and text values into CR LF;
- object spread.

## Model

| member | source | states |
|---|---|---|
| Js.TrimEmptyIffAllWhitespace | src/app/generate/page.tsx:51-54 | a prompt trims to the empty string exactly when every character is white space |
| Js.TrimIsCore | src/app/generate/page.tsx:51 | `trim` cuts only white space, from both ends, and the result neither starts nor ends with white space |
| Js.FormGet | src/app/api/image/upload/route.ts:68-70 | `formData.get` answers the value of the first entry with the key, and nothing exactly when no entry has it |
| Js.NormalizeNewlinesFixesPlainText | src/app/generate/page.tsx:85 | the multipart encoding leaves text without line breaks unchanged, and only such text comes out without line breaks |
| Js.NormalizeNewlinesIdempotent | src/app/generate/page.tsx:85 | encoding line breaks twice is encoding them once |
| Js.FormGetAfterRoundTrip | src/app/api/image/upload/route.ts:67-70 | after the multipart round trip, a key without line breaks finds the encoding of the value it found before |
| Js.ParseNatToString | src/app/api/image/history/route.ts:14-15 | `parseInt` reads the decimal form `String(n)` of every natural number back as `n` |
| Js.CeilDiv | src/app/api/image/history/route.ts:53 | `Math.ceil(total / pageSize)` is the least count of pages of that size holding `total` |
| Js.Spread | src/app/history/page.tsx:36-43 | in `{ ...o, ...filters }` a key of `filters` takes its value from `filters`, every other key keeps its value in `o`, and keys stay distinct |
| Storage.UploadToGcs | src/app/api/image/upload/route.ts:9-61 | with either variable unset: no backend write, placeholder returned. Otherwise: one PNG write of exactly these bytes under this name, to the bucket name as the storage library keeps it. A public URL on that name iff configured and the save and make-public both succeed; any backend failure gives the error handler's placeholder, unset variables give the other one; the object stays stored unless the save failed |
| Storage.BucketName | src/app/api/image/upload/route.ts:34-47 | the storage library keeps the configured bucket name without a leading `gs://` and without trailing slashes, never ending in `/`, and keeps a plain name unchanged |
| Storage.DropTrailingSlashesCutsSlashes | src/app/api/image/upload/route.ts:34 | only slashes are cut from the end of the bucket name |
| Storage.BucketNameForms | src/app/api/image/upload/route.ts:34-47 | configuring `gs://b`, with any number of trailing slashes, writes to and answers the URL of bucket `b`, exactly as configuring `b` does |
| Storage.SanitizeLabelProperties | src/app/api/image/upload/route.ts:19 | the placeholder label has the filename's length, holds only ASCII letters, digits and spaces, keeps every letter and digit in place, and sanitising twice changes nothing |
| Storage.HrefKinds | src/app/api/image/upload/route.ts:47-51 | a public URL is recognisable by the storage host prefix and a placeholder by the SVG `data:` prefix; no URL has both |
| Storage.PublicHrefInjective | src/app/api/image/upload/route.ts:47 | for bucket names without `/`, the public URL determines bucket and object name |
| Storage.UnconfiguredIsPlaceholder | src/app/api/image/upload/route.ts:12-25 | an unset key file or bucket name gives the `data:image/svg+xml;base64,` placeholder and no backend call, whatever the backend would do |
| Storage.BackendErrorPlaceholderDiffers | src/app/api/image/upload/route.ts:15-58 | a backend error returns a placeholder with the same caption as an unconfigured adapter's, but a different URL: the two template literals indent the SVG by 6 and by 8 spaces |
| Storage.PlaceholderSvg | src/app/api/image/upload/route.ts:15-22 | the placeholder's SVG text opens with a line break and the template's indentation of spaces before the `<svg` tag |
| Storage.PlaceholderCausesDiffer | src/app/api/image/upload/route.ts:15-58 | for every caption, the backend-error placeholder and the unconfigured placeholder are different URLs |
| Storage.MakePublicFailureLeavesObject | src/app/api/image/upload/route.ts:37-60 | when make-public fails after a save, the object is stored but the caller receives the placeholder |
| Auth.Secret | src/app/api/auth/middleware.ts:16 | the secret is `JWT_SECRET` when set and non-empty, and otherwise the public `fallback-secret-key` |
| Auth.BearerToken | src/app/api/auth/middleware.ts:6-12 | a token exists iff the header is present and starts case-sensitively with `Bearer `, and then the header is `Bearer ` followed by the token |
| Auth.BearerRoundTrip | src/app/api/auth/middleware.ts:12 | for every `t`, the header `Bearer ` + `t` yields exactly `t` |
| Auth.VerifyToken | src/app/api/auth/middleware.ts:4-23 | no bearer token gives 401 "Token não fornecido"; a token the verifier rejects gives 401 "Token inválido"; success exactly when the verifier accepts, with the verifier's claims as user |
| Auth.VerifyTokenRejections | src/app/api/auth/middleware.ts:8-22 | every rejection is a 401; a missing header and a lower-case `bearer ` header are both "Token não fornecido" |
| Auth.WithAuth | src/app/api/auth/middleware.ts:25-41 | the gate refuses exactly when verification fails, answering its error and status without running the handler; otherwise its answer is the handler's on the request with the verified user attached |
| Auth.WithAuthIndependentOfHandler | src/app/api/auth/middleware.ts:27-34 | whether the gate refuses, and its refusal, depend on the request alone, not on the handler behind it |
| Auth.ClientAuthorization | src/app/generate/page.tsx:82 | the header a page writes carries after `Bearer ` the stored token, or the text `null` when there is none |
| Auth.TrimHttpStartCutsWhitespace | src/app/generate/page.tsx:82 | stripping the start of a header value removes only tab, LF, CR and space, and the result does not start with one |
| Auth.TrimHttpEndCutsWhitespace | src/app/generate/page.tsx:82 | stripping the end of a header value removes only tab, LF, CR and space, and the result does not end with one |
| Auth.TrimHttpEndAppend | src/app/generate/page.tsx:82 | stripping the end of `Bearer ` + token strips only the token's trailing white space, unless the token is all white space, when it reaches into the prefix |
| Auth.ReceivedAuthorization | src/app/generate/page.tsx:79-86 | after `fetch` strips white space from the header's ends, the route reads the stored token without its trailing white space, and no token at all when only white space was stored |
| Auth.ClientTokenMissingIffBlank | src/app/history/page.tsx:44-45 | a page is answered "Token não fornecido" exactly when its stored token is empty or all white space, and every other refusal is "Token inválido"; without a stored token it is refused exactly when the verifier rejects `null` |
| Login.FindUser | src/app/api/auth/login/route.ts:27-29 | the lookup finds nothing iff no account matches both username and password, and otherwise the first matching account |
| Login.UsersDistinct | src/app/api/auth/login/route.ts:5-12 | no two accounts of the table share a username |
| Login.MatchIsUnique | src/app/api/auth/login/route.ts:5-29 | with distinct usernames any matching account is the one the lookup finds |
| Login.ClaimsFor | src/app/api/auth/login/route.ts:39-44 | the token claims are the account's username and name, with the username again as id |
| Login.Login | src/app/api/auth/login/route.ts:14-61 | an unparseable body is 500. A missing or empty username or password is 400 "Usuário e senha são obrigatórios", whatever the table holds. Otherwise success iff some account matches exactly, else 401 "Usuário ou senha inválidos". On success: the account's name and username, and a 24h token signed over its claims with the shared secret |
| Login.LoginWithTableEntry | src/app/api/auth/login/route.ts:27-53 | every table entry logs in with its own credentials and gets its own name, username and claims back |
| Login.WrongPasswordRejected | src/app/api/auth/login/route.ts:27-36 | a table username with any other non-empty password is refused with 401 "Usuário ou senha inválidos" |
| Generation.ReadFields | src/app/api/image/upload/route.ts:67-70 | the prompt, mode and image read are the first form entries under those keys, each present exactly when that entry exists and has the right kind |
| Generation.RequestFor | src/app/api/image/upload/route.ts:95-130 | with a source image the provider call is an edit of exactly those bytes; without one it is a `dall-e-3` generation; both ask for one 1024x1024 image with the prompt |
| Generation.GenerateArtifact | src/app/api/image/upload/route.ts:89-146 | the provider step never fails. It calls the provider first and stores the generated image last; its URL is the storage of the downloaded bytes or of the fallback bytes. It never touches the database |
| Generation.SourceOf | src/app/api/image/upload/route.ts:82 | there is a source image exactly when the mode is `edit` and an image was sent |
| Generation.HandleImageGeneration | src/app/api/image/upload/route.ts:64-190 | an unreadable body is a 500 before any call; a readable form never is |
| Generation.UploadPost | src/app/api/image/upload/route.ts:192 | the route refuses exactly when the token does not verify, with the verifier's message and 401, and otherwise answers the handler's result for the verified user |
| Generation.PromptRequired | src/app/api/image/upload/route.ts:72-77 | a missing or empty prompt is 400 "Prompt é obrigatório" and no upload, provider or database call is made |
| Generation.WhitespacePromptAccepted | src/app/api/image/upload/route.ts:72 | the route checks only that the prompt is non-empty: a prompt of one space is processed as is |
| Generation.AlwaysAnswersWithGeneratedUrl | src/app/api/image/upload/route.ts:79-181 | any readable form with a prompt gets a 200 answer with a generated URL and the prompt as sent, whatever the provider, storage and database do |
| Generation.OriginalUrlIffEditWithImage | src/app/api/image/upload/route.ts:82-86 | `originalUrl` is present iff the mode is `edit` and an image was sent. It is the upload of that image under `original/<uuid>.png`, made before the provider call |
| Generation.EditWithoutImageGenerates | src/app/api/image/upload/route.ts:117-130 | edit mode without an image takes the from-scratch branch: a `dall-e-3` request and no original URL |
| Generation.ProviderFailureFallsBack | src/app/api/image/upload/route.ts:102-146 | a provider that throws, answers without a URL, or whose image cannot be downloaded leads to a fallback upload: the original bytes when editing, an empty buffer otherwise |
| Generation.ProviderSuccessStoresDownload | src/app/api/image/upload/route.ts:106-110 | a successful provider call stores the downloaded bytes as the generated image |
| Generation.DbSuccessAnswer | src/app/api/image/upload/route.ts:150-170 | a successful insert answers with the database's id and createdAt and the username. The row stored carries the answered URLs and is the last call made |
| Generation.DbFailureAnswer | src/app/api/image/upload/route.ts:171-181 | a failed insert answers 200 with the same URLs, no id, and "Erro ao salvar no banco de dados", after the same calls |
| Generation.ServerErrorOnlyForUnreadableForm | src/app/api/image/upload/route.ts:183-189 | the answer is 500 exactly for an unreadable body, with "Erro interno do servidor" when its message is empty |
| Generation.CallOrder | src/app/api/image/upload/route.ts:82-158 | calls are made in this order: original upload (edit only), one provider call, the download (only after a URL came back), the generated upload, one database insert |
| Generation.UnauthenticatedUploadDenied | src/app/api/image/upload/route.ts:192 | a request without a bearer token is answered 401 "Token não fornecido" |
| HistoryApi.ReadQuery | src/app/api/image/history/route.ts:14-18 | absent `page` and `pageSize` read as 1 and 6. A decimal `page` or `pageSize` reads as its number. The prompt filter is the parameter or empty. A date bound exists exactly for a non-empty `from` or `to` |
| HistoryApi.BuildWhere | src/app/api/image/history/route.ts:21-34 | the where filter has a prompt condition exactly for a non-empty prompt, and a date bound exactly for each bound given |
| HistoryApi.Filter | src/app/api/image/history/route.ts:36-38 | the rows kept are exactly the matching records, each as often as in the table |
| HistoryApi.SortByCreatedDesc | src/app/api/image/history/route.ts:39 | the ordered rows are a permutation of the input, newest first |
| HistoryApi.EqualTimestampsReversed | src/app/api/image/history/route.ts:39 | two records with the same timestamp come out in reverse table order, one of the orders the database allows |
| HistoryApi.SkipTake | src/app/api/image/history/route.ts:40-41 | skip and take give at most `take` consecutive records starting at `skip`, and none past the end |
| HistoryApi.HandleHistory | src/app/api/image/history/route.ts:9-62 | a database error is answered with its message, or "Erro interno do servidor"; otherwise the answer echoes page and pageSize and holds at most pageSize rows |
| HistoryApi.Defaults | src/app/api/image/history/route.ts:14-15 | without `page` and `pageSize` the answer is page 1 of size 6 |
| HistoryApi.RowsAreOrderedSlice | src/app/api/image/history/route.ts:36-42 | the rows are matching records of the table, newest first: exactly the slice of the ordered matches that starts at `(page - 1) * pageSize` |
| HistoryApi.EveryMatchOnItsPage | src/app/api/image/history/route.ts:36-42 | every match appears: match number `d * pageSize + k` is row `k` of page `d + 1` |
| HistoryApi.TotalCountsAllMatches | src/app/api/image/history/route.ts:43 | `total` counts every matching record, whatever the page and page size |
| HistoryApi.TotalPagesIsCeiling | src/app/api/image/history/route.ts:48-54 | `totalPages` is the fewest pages of the page size that hold `total` records |
| HistoryApi.PagesUpToTotalPagesNonEmpty | src/app/api/image/history/route.ts:40-53 | a page has rows exactly when its number is at most `totalPages` |
| HistoryApi.EmptyFiltersMatchAll | src/app/api/image/history/route.ts:23-34 | without a prompt filter and date bounds every record matches |
| HistoryApi.PromptFilterIgnoresCase | src/app/api/image/history/route.ts:23-28 | the prompt filter is a substring match that ignores letter case on both sides |
| HistoryApi.DateBoundsInclusive | src/app/api/image/history/route.ts:30-34 | both date bounds are inclusive |
| HistoryApi.HistoryIgnoresUser | src/app/api/image/history/route.ts:11 | the answer does not depend on the requesting user: every user sees every generation |
| HistoryApi.HistoryGet | src/app/api/image/history/route.ts:64 | the route answers the handler's result only for a verified user, otherwise the verifier's message with 401 |
| GeneratePage.Capped | src/app/generate/page.tsx:167 | the prompt box never holds more than 300 characters and keeps a shorter text whole |
| GeneratePage.Step | src/app/generate/page.tsx:116-129 | switching to zero mode clears file and preview. Choosing a file works only in edit mode and clears error and result. A loaded preview changes nothing else. Selecting edit mode changes only the mode. Typing changes only the prompt, capped at 300 characters |
| GeneratePage.ReachableStatesKeepInvariant | src/app/generate/page.tsx:126-167 | in every reachable state zero mode has no file and the prompt has at most 300 characters |
| GeneratePage.LatePreviewOutlivesZeroSwitch | src/app/generate/page.tsx:31-34 | a preview whose reader finishes after the switch to zero mode is shown again in edit mode with no file chosen |
| GeneratePage.Validate | src/app/generate/page.tsx:46-58 | the checks run in order: image in edit mode, then a non-blank trimmed prompt, then at least 3 trimmed characters. The form passes exactly when all three hold, so 3 characters are accepted |
| GeneratePage.BuildForm | src/app/generate/page.tsx:67-70 | the form carries the trimmed prompt and the mode name, and the image exactly in edit mode with a file |
| GeneratePage.Submit | src/app/generate/page.tsx:40-95 | a request is sent exactly when the prompt box is not empty and the checks pass; it carries the built form and the bearer header. An `ok` answer is shown as the result with no error; otherwise the error is the answer's `error`, or "Erro ao gerar imagem" when that is empty, or the thrown message |
| Js.TrimIdempotent | src/app/generate/page.tsx:51 | trimming text that is already trimmed changes nothing, so the prompt the page sends has no surrounding whitespace left to strip |
| GeneratePage.BlankPromptRefused | src/app/generate/page.tsx:51-54 | any non-empty prompt made only of whitespace, in a mode whose image check passes, is refused with "Digite um prompt válido.", clears the result, changes nothing else and sends nothing |
| GeneratePage.ZeroModeSendsNoImage | src/app/generate/page.tsx:68 | a form sent from zero mode never carries an image |
| HistoryPage.Params | src/app/history/page.tsx:36-41 | the parameters hold `page` and `pageSize` as decimal text, and `prompt`, `from` and `to` exactly when those inputs are non-empty, and nothing else |
| HistoryPage.ParamsWith | src/app/history/page.tsx:36-43 | explicit `filters` override the state's parameters key by key |
| HistoryPage.PageCount | src/app/history/page.tsx:162 | the page counter shows at least 1 and the fewest pages that hold the total |
| HistoryPage.Step | src/app/history/page.tsx:87-171 | "Anterior" is disabled on page 1 and otherwise goes back one page. "Próxima" is disabled once `page * pageSize` reaches the total and otherwise goes forward one. A disabled button changes nothing. A button fetches exactly when it changes the page, and then fetches the new page. A step that starts a fetch clears the error line; any other step keeps it. Typing into a filter input sets that input to the typed text and changes nothing else |
| HistoryPage.FilterFetchIsFirstPage | src/app/history/page.tsx:60-61 | submitting the filter fetches page 1 with the current filters, the same parameters as the first page of the new state |
| HistoryPage.FetchesMatchNewState | src/app/history/page.tsx:26-29 | every fetch an event starts asks for the page and filters the state after the event holds |
| HistoryPage.PagingSendsTypedFilters | src/app/history/page.tsx:26-43 | paging sends the prompt filter as currently typed, even if the filter form was never submitted |
| HistoryPage.Receive | src/app/history/page.tsx:47-55 | a successful answer replaces rows and total and changes nothing else, the error line included; any failure shows the answer's error (or "Erro ao buscar histórico", or the thrown message) and keeps the previous rows |
| HistoryPage.FailureOutlivesLaterSuccess | src/app/history/page.tsx:31-53 | when the filter form's two fetches answer first with a failure and then with a success, the page shows the new rows on page 1 under the failure's message |
| HistoryPage.MountFetchAsksFirstPage | src/app/history/page.tsx:26-29 | the fetch started when the page mounts asks for page 1 of 6 records, with no filter |
| HistoryPage.ReachableStatesKeepInvariant | src/app/history/page.tsx:154 | in every reachable state the page is at least 1 and the page size is 6 |
| HistoryPage.NextEnabledIffBeforeLastPage | src/app/history/page.tsx:162-166 | "Próxima" is enabled exactly on pages before the last page the counter shows |
| Flows.UploadReply | src/app/generate/page.tsx:87-89 | the page reads an answer as `ok` exactly when the route ran the handler and answered 200, and every error answer (401, 400 and 500) carries its message |
| Flows.ReceivedForm | src/app/api/image/upload/route.ts:67-70 | the route reads the form a page built, after multipart encoding, as the trimmed prompt with line breaks as CR LF, the mode name, and the file exactly in edit mode with a file |
| Flows.PlainPromptArrivesTrimmed | src/app/api/image/upload/route.ts:68 | a prompt without line breaks reaches the route exactly as the page trimmed it |
| Flows.SentFormReadsBack | src/app/api/image/upload/route.ts:67-82 | the route reads a page's form back as the trimmed prompt (line breaks as CR LF, otherwise unchanged), still long enough, the mode name and the chosen file; it takes its edit branch exactly when the page was in edit mode |
| Flows.ValidSubmissionShowsResultIffAuthenticated | src/app/generate/page.tsx:78-89 | a form that passes the page's checks never meets the route's 400 or 500. The page shows a result iff the token is accepted, with the prompt as the route received it, the stored generated URL, and an original URL exactly in edit mode; otherwise it shows "Token não fornecido" for a blank stored token and "Token inválido" for any other |
| Flows.DbFailureShownAsSuccess | src/app/api/image/upload/route.ts:171-181 | a database failure reaches the page as `ok` with an `error` field, and the page shows the result with no error |
| Flows.LoginTokenAuthenticates | src/app/api/auth/login/route.ts:39-47 | if the JWT library verifies what it signed, a login token in a page's header authenticates as exactly that account's claims, also after `fetch` when the token does not end in white space |
| Flows.HistoryReplyOf | src/app/history/page.tsx:47-50 | the page reads the history answer as `ok` exactly for a page of results, with its rows and total |
| Flows.ParamsReadBack | src/app/api/image/history/route.ts:14-18 | the route reads the page's parameters back as the page's own page, page size, prompt filter and date bounds |
| Flows.AnswerShown | src/app/history/page.tsx:47-50 | after the route's answer to its own query the page shows exactly that page of the ordered matches and their total, and the error line stays as it was |
| Flows.NextPageShown | src/app/history/page.tsx:31-50 | after "Próxima" and the route's answer, the page shows the next page of the ordered matches with an empty error line, whatever error it showed before |
| Flows.NextDisabledIffNextPageEmpty | src/app/history/page.tsx:166 | once the page has applied the route's answer to its own query, "Próxima" is disabled exactly when the next page would come back empty |
| Flows.MissingTokenShowsInvalid | src/app/history/page.tsx:44-52 | without a stored token the page shows "Token inválido" and keeps its rows |
| Flows.NullTokenRefused | src/app/history/page.tsx:44-45 | when the verifier rejects the text `null`, the history route refuses a page without a stored token with 401 "Token inválido" |
| Flows.RefusalKeepsRows | src/app/history/page.tsx:47-52 | a refusal reaches the history page as its message, or "Erro ao buscar histórico" when that is empty, and the rows and total stay |

## Left out

- I/O and outside services are inputs, not code. Storage, the image provider, the download, the database, and JWT signing and verification are oracle outcomes or functions supplied by the caller. `new OpenAI(...)` failing for a missing key counts as the provider throwing.
- uuids are two fresh names supplied in the `World`, one for the original and one for the generated object.
- The placeholder's base64 step is not modelled: its URL is the `data:` prefix followed by the SVG text itself. base64 is injective, so two different SVG texts still give two different URLs.
- Date parsing (`new Date(from)`) is a function supplied by the caller. Consequently the model does not show that a date-only `to` value means midnight UTC, which excludes the rest of that day.
- HistoryApi.ReadQuery: reads only `page` and `pageSize` values made of decimal digits. `parseInt` of other text (signs, leading spaces, `0x`, trailing garbage, `NaN`) is not modelled, and that query is reported as not read.
- HistoryApi.HandleHistory: requires a page and page size of at least 1. A page of 0 gives a negative skip, which the database rejects; that error comes from Prisma and is outside the model. A page size of 0 raises no error: it reads no rows, `Math.ceil(total / 0)` is `Infinity` (or `NaN` when the total is 0), JSON writes it as `null`, and the route answers 200. The model does not cover that answer.
- HistoryApi.ReadQuery: `page` and `pageSize` are exact unbounded naturals here, and HistoryApi.HandleHistory computes with them exactly. In the route `parseInt` yields doubles, so values above 2^53 round (`9007199254740993` is echoed as `9007199254740992`), and `(page - 1) * pageSize` is floating-point arithmetic.
- Login.Login: the JSON body's `username` and `password` are absent or strings. Other JSON values are not modelled. A truthy non-string such as `1` reaches the lookup and gets 401. A falsy one (`0`, `false`, `null`) gets 400. A body that is JSON `null` throws while destructuring and gets 500.
- Auth.ReceivedAuthorization: `fetch` refuses some header values and throws before sending. This happens when a NUL, CR or LF is left inside the token after stripping, or when the token holds a character above U+00FF, since header values are byte strings. That failure is not modelled: the contract speaks of tokens without such characters, and for the others the request is never sent.
- Auth.VerifyToken: a token the verifier accepts is assumed to decode to the login route's claims (`username`, `name`, `id`). `jwt.verify` returns whatever payload was signed. The fallback secret is public, so anyone can sign a payload without `username`, or a plain string. The upload route then reads `user.username` as `undefined`. The insert gets no `user` value, and its answers carry no `user` field. Whether that insert fails depends on the database schema, which is not part of this model. The history route does not read the user.
- Js.MultipartRoundTrip: file entries arrive as sent. The encoding escapes quotes and line breaks in a file's name, but the route reads only the file's bytes.
- HistoryApi.SortByCreatedDesc: orders records with equal `createdAt` in reverse table order. The database leaves their order open, so the model fixes one of the allowed orders.
- Generation.ReadFields: a form value of the wrong kind (a file under `prompt`, or text under `image`) reads as absent. In the route, text under `image` in edit mode would make `arrayBuffer` fail and answer 500. The pages never send such forms.
- Strings are sequences of Unicode scalar values. JavaScript measures length in UTF-16 code units, so the 300-character cap and the 3-character minimum differ from the model for text outside the Basic Multilingual Plane.
- The history prompt filter's `mode: 'insensitive'` is modelled as ASCII case folding only. The database folds more letters.
- Concurrency is not modelled: the `loading` flag, the disabled submit button, overlapping history fetches and answers arriving out of order. A history answer is applied as a separate step.
- React rendering, styling, routing, `console` logging and `localStorage` are left out. The stored token is an input to the pages.
- The `FileReader` itself is left out. Its result is an event carrying the data URL.
- The health route, the seed script, the database test script, the user route, and the login and dashboard pages are not part of this model. They hold connectivity checks, scripting, or navigation only.

=== FILE: auth.dfy ===
/** `verifyToken` and `withAuth` (src/app/api/auth/middleware.ts): read a
    bearer token from the `Authorization` header, check it with the JWT
    library, and either reject the request with 401 or run the route handler
    on the request with the decoded user attached. JWT verification is an
    oracle `verify(token, secret)`. */
module Auth {
  import opened Js

  /** The claims the login route puts into a token and the middleware hands to handlers. */
  datatype Claims = Claims(username: string, name: string, id: string)

  const FallbackSecret := "fallback-secret-key"
  const BearerPrefix := "Bearer "
  const MissingTokenError := "Token não fornecido"
  const InvalidTokenError := "Token inválido"
  const Unauthorized := 401

  /** `process.env.JWT_SECRET || "fallback-secret-key"`, shared by signing and verification. */
  function Secret(jwtSecretEnv: Option<string>): (s: string)
    ensures s != ""
    ensures Present(jwtSecretEnv) ==> s == jwtSecretEnv.value
    ensures !Present(jwtSecretEnv) ==> s == FallbackSecret
  {
    OrElse(jwtSecretEnv, FallbackSecret)
  }

  /** `jwt.verify(token, secret)`: the decoded claims, or `None` where the library throws. */
  type Verifier = (string, string) -> Option<Claims>

  /** The token carried by an `Authorization` header: present only when the header
      exists and starts, case-sensitively, with `"Bearer "`; it is the header
      minus those seven characters. */
  function BearerToken(header: Option<string>): (t: Option<string>)
    ensures t.Some? <==> header.Some? && StartsWith(header.value, BearerPrefix)
    ensures t.Some? ==> header.value == BearerPrefix + t.value
  {
    if !Present(header) || !StartsWith(header.value, BearerPrefix) then None
    else
      var t := SubstringFrom(header.value, |BearerPrefix|);
      assert header.value[..|BearerPrefix|] == BearerPrefix;
      Some(t)
  }

  /** The header `"Bearer " + t` yields exactly `t`, for every `t`. */
  lemma BearerRoundTrip(t: string)
    ensures BearerToken(Some(BearerPrefix + t)) == Some(t)
  {
    var h := BearerPrefix + t;
    assert h[..|BearerPrefix|] == BearerPrefix;
    assert SubstringFrom(h, |BearerPrefix|) == t;
  }

  /** The token text a page puts after `Bearer `: the stored token, or `null`
      when local storage has none. */
  function StoredTokenText(token: Option<string>): string {
    if token.Some? then token.value else "null"
  }

  /** The header both client pages write: `Bearer ${token}`, where a token missing
      from local storage is written out as `null`. */
  function ClientAuthorization(token: Option<string>): (h: string)
    ensures BearerToken(Some(h)) == Some(StoredTokenText(token))
  {
    var t := StoredTokenText(token);
    BearerRoundTrip(t);
    BearerPrefix + t
  }

  /** HTTP white space as the Fetch Standard defines it: tab, line feed,
      carriage return and space. */
  predicate IsHttpWhitespace(c: char) {
    c == '\t' || c == '\n' || c == '\r' || c == ' '
  }

  /** `s` without its leading HTTP white space. */
  function TrimHttpStart(s: string): (r: string)
    ensures |r| <= |s| && r == s[|s| - |r|..]
    ensures r == [] || !IsHttpWhitespace(r[0])
  {
    if s != [] && IsHttpWhitespace(s[0]) then TrimHttpStart(s[1..]) else s
  }

  /** `s` without its trailing HTTP white space. */
  function TrimHttpEnd(s: string): (r: string)
    ensures |r| <= |s| && r == s[..|r|]
    ensures r == [] || !IsHttpWhitespace(r[|r| - 1])
  {
    if s != [] && IsHttpWhitespace(s[|s| - 1]) then TrimHttpEnd(s[..|s| - 1]) else s
  }

  /** Stripping from the start cuts off white space only. */
  lemma {:induction false} TrimHttpStartCutsWhitespace(s: string)
    ensures forall k :: 0 <= k < |s| - |TrimHttpStart(s)| ==> IsHttpWhitespace(s[k])
    decreases |s|
  {
    if s != [] && IsHttpWhitespace(s[0]) {
      TrimHttpStartCutsWhitespace(s[1..]);
      assert forall k :: 1 <= k < |s| ==> s[k] == s[1..][k - 1];
    }
  }

  /** Stripping from the end cuts off white space only. */
  lemma {:induction false} TrimHttpEndCutsWhitespace(s: string)
    ensures forall k :: |TrimHttpEnd(s)| <= k < |s| ==> IsHttpWhitespace(s[k])
    decreases |s|
  {
    if s != [] && IsHttpWhitespace(s[|s| - 1]) {
      TrimHttpEndCutsWhitespace(s[..|s| - 1]);
      assert forall k :: 0 <= k < |s| - 1 ==> s[k] == s[..|s| - 1][k];
    }
  }

  /** Trailing white space of `p + t` is stripped from `t` alone, unless `t` is
      all white space, in which case it reaches into `p`. */
  lemma {:induction false} TrimHttpEndAppend(p: string, t: string)
    ensures TrimHttpEnd(p + t) == if TrimHttpEnd(t) == [] then TrimHttpEnd(p) else p + TrimHttpEnd(t)
    decreases |t|
  {
    if t == [] {
      assert p + t == p;
    } else if IsHttpWhitespace(t[|t| - 1]) {
      assert (p + t)[..|p + t| - 1] == p + t[..|t| - 1];
      TrimHttpEndAppend(p, t[..|t| - 1]);
    }
  }

  /** The `Authorization` header as the route receives it from a page: `fetch`
      strips HTTP white space from both ends of a header value. The route reads
      the stored token without its trailing white space, and no token at all
      when nothing else is left of it (the header is then just `Bearer`). */
  function ReceivedAuthorization(token: Option<string>): (h: string)
    ensures var t := TrimHttpEnd(StoredTokenText(token));
            BearerToken(Some(h)) == (if t == "" then None else Some(t))
  {
    var t := StoredTokenText(token);
    var c := ClientAuthorization(token);
    assert c[0] == 'B';
    assert TrimHttpStart(c) == c;
    TrimHttpEndAppend(BearerPrefix, t);
    assert BearerPrefix[..|BearerPrefix| - 1] == "Bearer";
    assert TrimHttpEnd(BearerPrefix) == "Bearer";
    BearerRoundTrip(TrimHttpEnd(t));
    TrimHttpEnd(TrimHttpStart(c))
  }

  datatype AuthResult = AuthFailed(error: string, status: int) | Authenticated(user: Claims)

  /** `verifyToken(request)`. */
  function VerifyToken(header: Option<string>, jwtSecretEnv: Option<string>, verify: Verifier): (r: AuthResult)
    ensures BearerToken(header).None? ==> r == AuthFailed(MissingTokenError, Unauthorized)
    ensures BearerToken(header).Some? && verify(BearerToken(header).value, Secret(jwtSecretEnv)).None?
            ==> r == AuthFailed(InvalidTokenError, Unauthorized)
    ensures r.Authenticated? <==> BearerToken(header).Some? && verify(BearerToken(header).value, Secret(jwtSecretEnv)).Some?
    ensures r.Authenticated? ==> Some(r.user) == verify(BearerToken(header).value, Secret(jwtSecretEnv))
  {
    match BearerToken(header)
    case None => AuthFailed(MissingTokenError, Unauthorized)
    case Some(token) =>
      match verify(token, Secret(jwtSecretEnv))
      case None => AuthFailed(InvalidTokenError, Unauthorized)
      case Some(user) => Authenticated(user)
  }

  /** Every rejection is a 401, and the message says which check failed. */
  lemma VerifyTokenRejections(header: Option<string>, jwtSecretEnv: Option<string>, verify: Verifier)
    ensures VerifyToken(header, jwtSecretEnv, verify).AuthFailed? ==>
              VerifyToken(header, jwtSecretEnv, verify).status == Unauthorized
    ensures header.None? ==> VerifyToken(header, jwtSecretEnv, verify) == AuthFailed(MissingTokenError, Unauthorized)
    ensures forall t :: header == Some("bearer " + t) ==>
              VerifyToken(header, jwtSecretEnv, verify) == AuthFailed(MissingTokenError, Unauthorized)
  {
    forall t | header == Some("bearer " + t)
      ensures VerifyToken(header, jwtSecretEnv, verify) == AuthFailed(MissingTokenError, Unauthorized)
    {
      assert header.value[0] == 'b';
    }
  }

  /** A page is answered "Token não fornecido" exactly when its stored token is
      nothing but white space (the empty string included), since `fetch` strips
      what follows `Bearer`; any other refusal is "Token inválido". Without a
      stored token the route verifies the string `"null"`. */
  lemma {:induction false} ClientTokenMissingIffBlank(token: Option<string>, jwtSecretEnv: Option<string>, verify: Verifier)
    ensures var v := VerifyToken(Some(ReceivedAuthorization(token)), jwtSecretEnv, verify);
            v == AuthFailed(MissingTokenError, Unauthorized) <==> token.Some? && TrimHttpEnd(token.value) == ""
    ensures var v := VerifyToken(Some(ReceivedAuthorization(token)), jwtSecretEnv, verify);
            v.AuthFailed? && !(token.Some? && TrimHttpEnd(token.value) == "") ==> v == AuthFailed(InvalidTokenError, Unauthorized)
    ensures token.None? ==>
              (VerifyToken(Some(ReceivedAuthorization(token)), jwtSecretEnv, verify).AuthFailed?
               <==> verify("null", Secret(jwtSecretEnv)).None?)
  {
    var t := TrimHttpEnd(StoredTokenText(token));
    var b := BearerToken(Some(ReceivedAuthorization(token)));
    var v := VerifyToken(Some(ReceivedAuthorization(token)), jwtSecretEnv, verify);
    if token.None? {
      assert "null"[3] == 'l';
      assert t == "null";
      assert b == Some("null");
    } else if t == "" {
      assert b.None?;
      assert v == AuthFailed(MissingTokenError, Unauthorized);
    } else {
      assert b == Some(t);
      assert v.AuthFailed? ==> v == AuthFailed(InvalidTokenError, Unauthorized);
    }
  }

  /** An incoming request: its `Authorization` header and its body. */
  datatype Request<B> = Request(authorization: Option<string>, body: B)

  /** A request with the decoded user attached, as route handlers see it. */
  datatype AuthedRequest<B> = AuthedRequest(user: Claims, request: Request<B>)

  /** What `withAuth(handler)` answers: the JSON error with the failed check's
      status, or the handler's own response. */
  datatype Gated<R> = Denied(error: string, status: int) | Passed(response: R)

  /** `withAuth(handler)(request)`. The handler runs only on an authenticated
      request, once, with the verified user attached. */
  function WithAuth<B, R>(handler: AuthedRequest<B> -> R, req: Request<B>, jwtSecretEnv: Option<string>,
                          verify: Verifier): (g: Gated<R>)
    ensures g.Denied? <==> VerifyToken(req.authorization, jwtSecretEnv, verify).AuthFailed?
    ensures g.Denied? ==> g.status == VerifyToken(req.authorization, jwtSecretEnv, verify).status
                          && g.error == VerifyToken(req.authorization, jwtSecretEnv, verify).error
    ensures g.Passed? ==> g.response == handler(AuthedRequest(VerifyToken(req.authorization, jwtSecretEnv, verify).user, req))
  {
    match VerifyToken(req.authorization, jwtSecretEnv, verify)
    case AuthFailed(error, status) => Denied(error, status)
    case Authenticated(user) => Passed(handler(AuthedRequest(user, req)))
  }

  /** The gate's decision depends only on the header: two handlers on the same
      request are both denied, with the same answer, or both run with the same user. */
  lemma WithAuthIndependentOfHandler<B, R>(h1: AuthedRequest<B> -> R, h2: AuthedRequest<B> -> R, req: Request<B>,
                                           jwtSecretEnv: Option<string>, verify: Verifier)
    ensures WithAuth(h1, req, jwtSecretEnv, verify).Denied? <==> WithAuth(h2, req, jwtSecretEnv, verify).Denied?
    ensures WithAuth(h1, req, jwtSecretEnv, verify).Denied? ==>
              WithAuth(h1, req, jwtSecretEnv, verify) == WithAuth(h2, req, jwtSecretEnv, verify)
  {
  }
}

=== FILE: flows.dfy ===
/** How the two pages and the routes fit together: the form the generation
    page sends as the upload route reads it, the route's JSON answer as the
    page shows it, a login token presented back to the middleware, and the
    history page's parameters and paging against the history route. */
module Flows {
  import opened Js
  import opened Storage
  import opened Auth
  import Login
  import Generation
  import GeneratePage
  import HistoryApi
  import HistoryPage

  // ---------------------------------------------------------------------------
  // Generation page and upload route

  /** The fields of a successful answer as JSON: URLs as strings, no `originalUrl`
      outside edit mode, and the advisory `error` when the database failed. */
  function BodyData(b: Generation.Body, error: Option<string>): (d: GeneratePage.ReplyData)
    ensures d.error == error && d.prompt == Some(b.prompt)
    ensures d.generatedUrl == Some(Href(b.generatedUrl))
    ensures d.originalUrl.Some? <==> b.originalUrl.Some?
    ensures d.originalUrl.Some? ==> d.originalUrl.value == Href(b.originalUrl.value)
  {
    GeneratePage.ReplyData(error, if b.originalUrl.Some? then Some(Href(b.originalUrl.value)) else None,
                           Some(Href(b.generatedUrl)), Some(b.prompt))
  }

  /** The answer of `POST /api/image/upload` as the page's `fetch` sees it: `ok`
      is a 2xx status (the gate's refusals are all 401), and every error answer
      carries its message in `error`. */
  function UploadReply(g: Gated<Generation.Handled>): (r: GeneratePage.FetchOutcome)
    ensures r.Replied?
    ensures r.ok <==> g.Passed? && Generation.Status(g.response.response) == 200
    ensures g.Denied? ==> r.data.error == Some(g.error)
    ensures g.Passed? && g.response.response.Unsaved? ==> r.data.error == Some(g.response.response.error)
    ensures g.Passed? && (g.response.response.BadRequest? || g.response.response.ServerError?) ==>
              r.data.error == Some(g.response.response.error)
  {
    match g
    case Denied(error, _) => GeneratePage.Replied(false, GeneratePage.ReplyData(Some(error), None, None, None))
    case Passed(handled) =>
      match handled.response
      case BadRequest(error) => GeneratePage.Replied(false, GeneratePage.ReplyData(Some(error), None, None, None))
      case ServerError(error) => GeneratePage.Replied(false, GeneratePage.ReplyData(Some(error), None, None, None))
      case Saved(_, _, body) => GeneratePage.Replied(true, BodyData(body, None))
      case Unsaved(body, error) => GeneratePage.Replied(true, BodyData(body, Some(error)))
  }

  /** The form a page builds, as the route reads it after `fetch` sent it as
      `multipart/form-data`: the trimmed prompt with its line breaks turned
      into CR LF, the mode's name, and the file only in edit mode. */
  function ReceivedForm(s: GeneratePage.PageState): (f: Generation.FormFields)
    ensures f.prompt == Some(NormalizeNewlines(Trim(s.prompt)))
    ensures f.mode == Some(GeneratePage.ModeName(s.mode))
    ensures f.image == (if s.mode == GeneratePage.Edit && s.file.Some? then s.file else None)
  {
    var form := GeneratePage.BuildForm(s);
    SentPromptRead(s);
    SentModeRead(s);
    SentImageRead(s);
    Generation.ReadFields(MultipartRoundTrip(form))
  }

  /** The prompt, mode and image of the form a page builds, each as the route
      reads it after the multipart round trip. */
  lemma SentPromptRead(s: GeneratePage.PageState)
    ensures Generation.ReadFields(MultipartRoundTrip(GeneratePage.BuildForm(s))).prompt
            == Some(NormalizeNewlines(Trim(s.prompt)))
  {
    PromptAfterRoundTrip(GeneratePage.BuildForm(s), Trim(s.prompt));
  }

  lemma SentModeRead(s: GeneratePage.PageState)
    ensures Generation.ReadFields(MultipartRoundTrip(GeneratePage.BuildForm(s))).mode
            == Some(GeneratePage.ModeName(s.mode))
  {
    var m := GeneratePage.ModeName(s.mode);
    assert m == "edit" || m == "zero";
    ModeAfterRoundTrip(GeneratePage.BuildForm(s), m);
  }

  lemma SentImageRead(s: GeneratePage.PageState)
    ensures Generation.ReadFields(MultipartRoundTrip(GeneratePage.BuildForm(s))).image
            == (if s.mode == GeneratePage.Edit && s.file.Some? then s.file else None)
  {
    var form := GeneratePage.BuildForm(s);
    ImageFieldOf(form, if s.mode == GeneratePage.Edit && s.file.Some? then s.file else None);
    ImageAfterRoundTrip(form);
  }

  /** The route reads a sent form's prompt with its line breaks normalised. */
  lemma PromptAfterRoundTrip(form: FormData, prompt: string)
    requires FormGet(form, "prompt") == Some(TextValue(prompt))
    ensures Generation.ReadFields(MultipartRoundTrip(form)).prompt == Some(NormalizeNewlines(prompt))
  {
    assert NoLineBreaks("prompt");
    FormGetAfterRoundTrip(form, "prompt");
  }

  /** The route reads a sent mode name without line breaks as written. */
  lemma ModeAfterRoundTrip(form: FormData, mode: string)
    requires FormGet(form, "mode") == Some(TextValue(mode)) && NoLineBreaks(mode)
    ensures Generation.ReadFields(MultipartRoundTrip(form)).mode == Some(mode)
  {
    assert NoLineBreaks("mode");
    FormGetAfterRoundTrip(form, "mode");
    NormalizeNewlinesFixesPlainText(mode);
  }

  /** The route reads the file of a form's `image` entry as its image. */
  lemma ImageFieldOf(form: FormData, file: Option<File>)
    requires FormGet(form, "image").Some? <==> file.Some?
    requires file.Some? ==> FormGet(form, "image") == Some(FileValue(file.value))
    ensures Generation.ReadFields(form).image == file
  {
  }

  /** The route reads a sent image as it was sent. */
  lemma ImageAfterRoundTrip(form: FormData)
    ensures Generation.ReadFields(MultipartRoundTrip(form)).image == Generation.ReadFields(form).image
  {
    assert NoLineBreaks("image");
    FormGetAfterRoundTrip(form, "image");
  }

  /** A prompt without line breaks reaches the route exactly as the page
      trimmed it. */
  lemma PlainPromptArrivesTrimmed(s: GeneratePage.PageState)
    requires NoLineBreaks(s.prompt)
    ensures ReceivedForm(s).prompt == Some(Trim(s.prompt))
  {
    var i, j := TrimCut(s.prompt);
    assert forall k :: 0 <= k < j - i ==> Trim(s.prompt)[k] == s.prompt[i + k];
    assert NoLineBreaks(Trim(s.prompt));
    NormalizeNewlinesFixesPlainText(Trim(s.prompt));
  }

  /** The form a page sends, read by the route: the trimmed prompt (line breaks
      as CR LF) still passes the page's length check, the mode's name, and the
      file only in edit mode. The route takes its edit branch exactly when the
      page was in edit mode. */
  lemma SentFormReadsBack(s: GeneratePage.PageState, token: Option<string>, reply: GeneratePage.FetchOutcome)
    requires GeneratePage.Submit(s, token, reply).sent.Some?
    ensures var f := Generation.ReadFields(MultipartRoundTrip(GeneratePage.Submit(s, token, reply).sent.value.form));
            && f.prompt == Some(NormalizeNewlines(Trim(s.prompt)))
            && (NoLineBreaks(s.prompt) ==> f.prompt == Some(Trim(s.prompt)))
            && Present(f.prompt) && |f.prompt.value| >= GeneratePage.MinPromptLength
            && f.mode == Some(GeneratePage.ModeName(s.mode))
            && (s.mode == GeneratePage.Edit ==> f.image == s.file)
            && (Generation.Editing(f) <==> s.mode == GeneratePage.Edit)
  {
    var f := ReceivedForm(s);
    if NoLineBreaks(s.prompt) {
      PlainPromptArrivesTrimmed(s);
    }
  }

  /** What the page shows after sending a form to the route: the route's answer
      to the request the page built, as `fetch` delivered it. */
  function Exchange(s: GeneratePage.PageState, token: Option<string>, jwtSecretEnv: Option<string>,
                    verify: Verifier, w: Generation.World): (r: GeneratePage.Submitted)
    ensures r.state.mode == s.mode && r.state.prompt == s.prompt
  {
    var request := Request(Some(ReceivedAuthorization(token)), Generation.ReadableForm(ReceivedForm(s)));
    GeneratePage.Submit(s, token, UploadReply(Generation.UploadPost(request, jwtSecretEnv, verify, w)))
  }

  /** The route's answer to a form that passed the page's checks, from an
      authenticated user: a 2xx answer with the prompt as received, the generated
      URL the route stored, and an original URL exactly in edit mode. */
  lemma {:induction false} RouteAnswersPageForm(s: GeneratePage.PageState, user: Claims, w: Generation.World)
    requires GeneratePage.Validate(s).None?
    ensures var h := Generation.HandleImageGeneration(user, Generation.ReadableForm(ReceivedForm(s)), w);
            var r := UploadReply(Passed(h));
            && r.ok
            && r.data.prompt == Some(NormalizeNewlines(Trim(s.prompt)))
            && r.data.generatedUrl == Some(Href(h.response.body.generatedUrl))
            && (r.data.originalUrl.Some? <==> s.mode == GeneratePage.Edit)
            && (r.data.error.Some? <==> w.db.DbThrows?)
  {
    var f := ReceivedForm(s);
    assert Generation.Editing(f) <==> s.mode == GeneratePage.Edit;
    AnswerForFields(user, f, w);
  }

  /** The route's answer to any readable form with a prompt, as the page reads it. */
  lemma AnswerForFields(user: Claims, f: Generation.FormFields, w: Generation.World)
    requires Present(f.prompt)
    ensures var h := Generation.HandleImageGeneration(user, Generation.ReadableForm(f), w);
            var r := UploadReply(Passed(h));
            && r.ok
            && r.data.prompt == f.prompt
            && r.data.generatedUrl == Some(Href(h.response.body.generatedUrl))
            && (r.data.originalUrl.Some? <==> Generation.Editing(f))
            && (r.data.error.Some? <==> w.db.DbThrows?)
  {
    Generation.AlwaysAnswersWithGeneratedUrl(user, f, w);
    Generation.OriginalUrlIffEditWithImage(user, f, w);
  }

  /** The link to the generated image a 2xx answer of the route carries, if any. */
  function StoredHref(h: Generation.Handled): Option<string>
  {
    match h.response
    case Saved(_, _, body) => Some(Href(body.generatedUrl))
    case Unsaved(body, _) => Some(Href(body.generatedUrl))
    case _ => None
  }

  /** A form that passes the page's checks never meets the route's 400 or 500:
      the page shows a result exactly when the token is accepted, with the
      prompt as the route received it, the generated URL the route stored and
      no error line, even when the database failed. Otherwise it shows
      "Token não fornecido" for a blank stored token and "Token inválido" for
      any other. */
  lemma {:induction false} ValidSubmissionShowsResultIffAuthenticated(
      s: GeneratePage.PageState, token: Option<string>, jwtSecretEnv: Option<string>, verify: Verifier,
      w: Generation.World)
    requires s.prompt != "" && GeneratePage.Validate(s).None?
    ensures var r := Exchange(s, token, jwtSecretEnv, verify, w);
            var v := VerifyToken(Some(ReceivedAuthorization(token)), jwtSecretEnv, verify);
            && (r.state.result.Some? <==> v.Authenticated?)
            && (r.state.result.None? ==>
                  r.state.error == (if token.Some? && TrimHttpEnd(token.value) == "" then MissingTokenError
                                    else InvalidTokenError))
            && (r.state.result.Some? ==>
                  && r.state.error == ""
                  && r.state.result.value.prompt == Some(NormalizeNewlines(Trim(s.prompt)))
                  && (r.state.result.value.originalUrl.Some? <==> s.mode == GeneratePage.Edit))
            && (v.Authenticated? && r.state.result.Some? ==>
                  r.state.result.value.generatedUrl
                  == StoredHref(Generation.HandleImageGeneration(v.user, Generation.ReadableForm(ReceivedForm(s)), w)))
  {
    var v := VerifyToken(Some(ReceivedAuthorization(token)), jwtSecretEnv, verify);
    if v.Authenticated? {
      AcceptedSubmissionShowsResult(s, token, jwtSecretEnv, verify, w);
    } else {
      ClientTokenMissingIffBlank(token, jwtSecretEnv, verify);
      RefusedSubmissionShowsGateError(s, token, jwtSecretEnv, verify, w);
    }
  }

  /** With the token accepted, the page shows the route's 2xx answer. */
  lemma {:induction false} AcceptedSubmissionShowsResult(
      s: GeneratePage.PageState, token: Option<string>, jwtSecretEnv: Option<string>, verify: Verifier,
      w: Generation.World)
    requires s.prompt != "" && GeneratePage.Validate(s).None?
    requires VerifyToken(Some(ReceivedAuthorization(token)), jwtSecretEnv, verify).Authenticated?
    ensures var r := Exchange(s, token, jwtSecretEnv, verify, w);
            var h := Generation.HandleImageGeneration(
                       VerifyToken(Some(ReceivedAuthorization(token)), jwtSecretEnv, verify).user,
                       Generation.ReadableForm(ReceivedForm(s)), w);
            && r.state.result == Some(UploadReply(Passed(h)).data)
            && r.state.error == ""
            && UploadReply(Passed(h)).ok
            && r.state.result.value.prompt == Some(NormalizeNewlines(Trim(s.prompt)))
            && (r.state.result.value.originalUrl.Some? <==> s.mode == GeneratePage.Edit)
            && r.state.result.value.generatedUrl == StoredHref(h)
  {
    var request := Request(Some(ReceivedAuthorization(token)), Generation.ReadableForm(ReceivedForm(s)));
    var v := VerifyToken(Some(ReceivedAuthorization(token)), jwtSecretEnv, verify);
    var h := Generation.HandleImageGeneration(v.user, request.body, w);
    RouteAnswersPageForm(s, v.user, w);
    assert Generation.UploadPost(request, jwtSecretEnv, verify, w) == Passed(h);
    assert Exchange(s, token, jwtSecretEnv, verify, w) == GeneratePage.Submit(s, token, UploadReply(Passed(h)));
    PassedReplyShown(s, token, h);
  }

  /** A 2xx answer reaches a page whose checks passed as its result, carrying
      the stored link to the generated image. */
  lemma PassedReplyShown(s: GeneratePage.PageState, token: Option<string>, h: Generation.Handled)
    requires s.prompt != "" && GeneratePage.Validate(s).None?
    requires UploadReply(Passed(h)).ok
    ensures var r := GeneratePage.Submit(s, token, UploadReply(Passed(h)));
            && r.state.result == Some(UploadReply(Passed(h)).data)
            && r.state.error == ""
            && UploadReply(Passed(h)).data.generatedUrl == StoredHref(h)
  {
    assert h.response.Saved? || h.response.Unsaved?;
  }

  /** With the token refused, the page shows the gate's message and no result. */
  lemma {:induction false} RefusedSubmissionShowsGateError(
      s: GeneratePage.PageState, token: Option<string>, jwtSecretEnv: Option<string>, verify: Verifier,
      w: Generation.World)
    requires s.prompt != "" && GeneratePage.Validate(s).None?
    requires VerifyToken(Some(ReceivedAuthorization(token)), jwtSecretEnv, verify).AuthFailed?
    ensures var r := Exchange(s, token, jwtSecretEnv, verify, w);
            && r.state.result.None?
            && r.state.error == VerifyToken(Some(ReceivedAuthorization(token)), jwtSecretEnv, verify).error
  {
    var request := Request(Some(ReceivedAuthorization(token)), Generation.ReadableForm(ReceivedForm(s)));
    var g := Generation.UploadPost(request, jwtSecretEnv, verify, w);
    assert Exchange(s, token, jwtSecretEnv, verify, w) == GeneratePage.Submit(s, token, UploadReply(g));
    assert g.Denied? && g.error == VerifyToken(Some(ReceivedAuthorization(token)), jwtSecretEnv, verify).error;
    assert g.error == MissingTokenError || g.error == InvalidTokenError;
    DeniedReplyShown(s, token, g);
  }

  /** A gate refusal with a message reaches a page whose checks passed as that message. */
  lemma DeniedReplyShown(s: GeneratePage.PageState, token: Option<string>, g: Gated<Generation.Handled>)
    requires s.prompt != "" && GeneratePage.Validate(s).None?
    requires g.Denied? && (g.error == MissingTokenError || g.error == InvalidTokenError)
    ensures var r := GeneratePage.Submit(s, token, UploadReply(g));
            r.state.result.None? && r.state.error == g.error
  {
    assert UploadReply(g) == GeneratePage.Replied(false, GeneratePage.ReplyData(Some(g.error), None, None, None));
    SubmitShowsRefusal(s, token, g.error);
  }

  /** A refusal with a message reaches a page whose checks passed as that message. */
  lemma SubmitShowsRefusal(s: GeneratePage.PageState, token: Option<string>, error: string)
    requires s.prompt != "" && GeneratePage.Validate(s).None? && error != ""
    ensures var r := GeneratePage.Submit(s, token, GeneratePage.Replied(false, GeneratePage.ReplyData(Some(error), None, None, None)));
            r.state.result.None? && r.state.error == error
  {
  }

  /** A database failure reaches the page as a success: the answer's `error`
      field is set but `ok` is true, so the page shows the result and no error. */
  lemma {:induction false} DbFailureShownAsSuccess(
      s: GeneratePage.PageState, token: Option<string>, jwtSecretEnv: Option<string>, verify: Verifier,
      w: Generation.World)
    requires s.prompt != "" && GeneratePage.Validate(s).None?
    requires VerifyToken(Some(ReceivedAuthorization(token)), jwtSecretEnv, verify).Authenticated?
    requires w.db.DbThrows?
    ensures var g := Generation.UploadPost(Request(Some(ReceivedAuthorization(token)),
                       Generation.ReadableForm(ReceivedForm(s))), jwtSecretEnv, verify, w);
            UploadReply(g).ok && UploadReply(g).data.error == Some(Generation.DbSaveError)
    ensures Exchange(s, token, jwtSecretEnv, verify, w).state.result.Some?
    ensures Exchange(s, token, jwtSecretEnv, verify, w).state.error == ""
  {
    var request := Request(Some(ReceivedAuthorization(token)), Generation.ReadableForm(ReceivedForm(s)));
    var v := VerifyToken(Some(ReceivedAuthorization(token)), jwtSecretEnv, verify);
    RouteAnswersPageForm(s, v.user, w);
    assert Generation.UploadPost(request, jwtSecretEnv, verify, w)
           == Passed(Generation.HandleImageGeneration(v.user, request.body, w));
    ValidSubmissionShowsResultIffAuthenticated(s, token, jwtSecretEnv, verify, w);
  }

  // ---------------------------------------------------------------------------
  // Login and the middleware

  /** A token issued by the login route authenticates its account: if the JWT
      library verifies what it signed with the same secret, the header the pages
      write with that token yields the account's claims. The header also
      survives `fetch` when the library's tokens do not end in white space, as
      JWTs in compact form (base64url parts joined by dots) never do. */
  lemma LoginTokenAuthenticates(k: nat, jwtSecretEnv: Option<string>, sign: Login.Signer, verify: Verifier)
    requires k < |Login.Users|
    requires forall c: Claims {:trigger sign(c, Secret(jwtSecretEnv), Login.TokenLifetime)} ::
               verify(sign(c, Secret(jwtSecretEnv), Login.TokenLifetime), Secret(jwtSecretEnv)) == Some(c)
    ensures var a := Login.Users[k];
            var answer := Login.Login(Login.Credentials(Some(a.username), Some(a.password)), jwtSecretEnv, sign);
            && answer.LoggedIn?
            && VerifyToken(Some(ClientAuthorization(Some(answer.token))), jwtSecretEnv, verify)
               == Authenticated(Login.ClaimsFor(a))
            && (answer.token != "" && TrimHttpEnd(answer.token) == answer.token ==>
                  VerifyToken(Some(ReceivedAuthorization(Some(answer.token))), jwtSecretEnv, verify)
                  == Authenticated(Login.ClaimsFor(a)))
  {
    Login.LoginWithTableEntry(k, jwtSecretEnv, sign);
  }

  // ---------------------------------------------------------------------------
  // History page and history route

  /** The answer of `GET /api/image/history` as the page's `fetch` sees it (the
      gate's refusals are all 401). */
  function HistoryReplyOf(g: Gated<HistoryApi.HistoryResponse>): (r: HistoryPage.HistoryReply)
    ensures r.Replied?
    ensures r.ok <==> g.Passed? && g.response.HistoryPage?
    ensures r.ok ==> r.data == g.response.data && r.total == g.response.total
    ensures !r.ok ==> r.error == Some(if g.Denied? then g.error else g.response.error)
  {
    match g
    case Denied(error, _) => HistoryPage.Replied(false, Some(error), [], 0)
    case Passed(HistoryPage(data, total, _, _, _)) => HistoryPage.Replied(true, None, data, total)
    case Passed(HistoryFailed(error)) => HistoryPage.Replied(false, Some(error), [], 0)
  }

  /** The route reads the page's parameters back as the page's own state: its
      page, its page size, its prompt filter, and a bound for each date filled in. */
  lemma {:induction false} ParamsReadBack(s: HistoryPage.PageState, parseDate: HistoryApi.DateParser)
    requires HistoryPage.Invariant(s)
    ensures var q := HistoryApi.ReadQuery(HistoryPage.Params(s), parseDate);
            && q.Some?
            && HistoryApi.ValidPaging(q.value)
            && HistoryApi.PageOf(q.value) == s.page
            && HistoryApi.PageSizeOf(q.value) == s.pageSize
            && q.value.prompt == s.promptFilter
            && q.value.from == (if s.from != "" then Some(parseDate(s.from)) else None)
            && q.value.to == (if s.to != "" then Some(parseDate(s.to)) else None)
  {
    var p := HistoryPage.Params(s);
    ParseNatToString(s.page);
    ParseNatToString(s.pageSize);
    assert OrElse(Lookup(p, "page"), "1") == NatToString(s.page);
    assert OrElse(Lookup(p, "pageSize"), "6") == NatToString(s.pageSize);
  }

  /** The query the route builds from the page's parameters. */
  function QueryOf(s: HistoryPage.PageState, parseDate: HistoryApi.DateParser): (q: HistoryApi.HistoryQuery)
    requires HistoryPage.Invariant(s)
    ensures HistoryApi.ValidPaging(q) && HistoryApi.PageOf(q) == s.page && HistoryApi.PageSizeOf(q) == s.pageSize
  {
    ParamsReadBack(s, parseDate);
    HistoryApi.ReadQuery(HistoryPage.Params(s), parseDate).value
  }

  /** After the page receives the route's answer for its own query, it shows
      exactly that page of the ordered matches and their total, and the error
      line stays as the fetch left it when it started. */
  lemma {:induction false} AnswerShown(s: HistoryPage.PageState, parseDate: HistoryApi.DateParser, user: Claims,
                                       rs: seq<HistoryApi.Record>)
    requires HistoryPage.Invariant(s)
    ensures var q := QueryOf(s, parseDate);
            var t := HistoryPage.Receive(s, HistoryReplyOf(Passed(HistoryApi.HandleHistory(user, q, HistoryApi.Rows(rs)))));
            && t.data == HistoryApi.SkipTake(HistoryApi.Ordered(q, rs), HistoryApi.SkipOf(q), s.pageSize)
            && t.total == |HistoryApi.Ordered(q, rs)|
            && t.error == s.error
  {
    var q := QueryOf(s, parseDate);
    HistoryApi.DataIsSlice(user, q, rs);
    HistoryApi.Counts(user, q, rs);
  }

  /** Paging forward and then receiving the route's answer shows the next page
      of the ordered matches with an empty error line, whatever the page showed
      before: the fetch cleared the error as it started. */
  lemma {:induction false} NextPageShown(s: HistoryPage.PageState, parseDate: HistoryApi.DateParser, user: Claims,
                                         rs: seq<HistoryApi.Record>)
    requires HistoryPage.Invariant(s) && !HistoryPage.NextDisabled(s)
    ensures var n := HistoryPage.Step(s, HistoryPage.Next).state;
            var q := QueryOf(n, parseDate);
            var t := HistoryPage.Receive(n, HistoryReplyOf(Passed(HistoryApi.HandleHistory(user, q, HistoryApi.Rows(rs)))));
            && t.page == s.page + 1
            && t.error == ""
            && t.data == HistoryApi.SkipTake(HistoryApi.Ordered(q, rs), HistoryApi.SkipOf(q), s.pageSize)
  {
    var n := HistoryPage.Step(s, HistoryPage.Next).state;
    AnswerShown(n, parseDate, user, rs);
  }

  /** Once the page has received the route's answer for its own query, the
      "Próxima" button is disabled exactly when the next page would come back empty. */
  lemma {:induction false} NextDisabledIffNextPageEmpty(s: HistoryPage.PageState, parseDate: HistoryApi.DateParser,
                                                        user: Claims, rs: seq<HistoryApi.Record>)
    requires HistoryPage.Invariant(s)
    ensures var q := QueryOf(s, parseDate);
            var t := HistoryPage.Receive(s, HistoryReplyOf(Passed(HistoryApi.HandleHistory(user, q, HistoryApi.Rows(rs)))));
            var next := q.(page := Some(s.page + 1));
            HistoryApi.ValidPaging(next)
            && (HistoryPage.NextDisabled(t) <==> HistoryApi.HandleHistory(user, next, HistoryApi.Rows(rs)).data == [])
  {
    var q := QueryOf(s, parseDate);
    var next := q.(page := Some(s.page + 1));
    AnswerShown(s, parseDate, user, rs);
    HistoryApi.SkipOfPage(q, s.page);
    assert HistoryApi.Ordered(next, rs) == HistoryApi.Ordered(q, rs);
    HistoryApi.DataNonEmptyIff(user, next, rs);
  }

  /** A page without a stored token is refused with "Token inválido" unless the
      verifier accepts the string `"null"`; the page shows that message and
      keeps its rows. */
  lemma {:induction false} MissingTokenShowsInvalid(s: HistoryPage.PageState, jwtSecretEnv: Option<string>,
                                                    verify: Verifier, q: HistoryApi.HistoryQuery,
                                                    table: HistoryApi.Table)
    requires HistoryApi.ValidPaging(q)
    requires verify("null", Secret(jwtSecretEnv)).None?
    ensures var g := HistoryApi.HistoryGet(Request(Some(ReceivedAuthorization(None)), q), jwtSecretEnv, verify, table);
            var t := HistoryPage.Receive(s, HistoryReplyOf(g));
            t.error == InvalidTokenError && t.data == s.data && t.total == s.total
  {
    NullTokenRefused(jwtSecretEnv, verify, q, table);
    RefusalKeepsRows(s, InvalidTokenError);
  }

  /** Without a stored token the history route refuses with "Token inválido"
      when the verifier rejects `"null"`. */
  lemma NullTokenRefused(jwtSecretEnv: Option<string>, verify: Verifier, q: HistoryApi.HistoryQuery,
                         table: HistoryApi.Table)
    requires HistoryApi.ValidPaging(q)
    requires verify("null", Secret(jwtSecretEnv)).None?
    ensures HistoryApi.HistoryGet(Request(Some(ReceivedAuthorization(None)), q), jwtSecretEnv, verify, table)
            == Denied(InvalidTokenError, Unauthorized)
  {
    ClientTokenMissingIffBlank(None, jwtSecretEnv, verify);
  }

  /** A refusal reaches the history page as its message (the page's own one
      when the message is empty), and the rows stay. */
  lemma RefusalKeepsRows(s: HistoryPage.PageState, error: string)
    ensures var t := HistoryPage.Receive(s, HistoryReplyOf(Denied(error, Unauthorized)));
            && t.error == (if error != "" then error else HistoryPage.FetchFailedError)
            && t.data == s.data && t.total == s.total
  {
  }
}

=== FILE: generate_page.dfy ===
/** The client rules of the generation page (src/app/generate/page.tsx): the
    mode switch, the file and prompt inputs, the checks made before a request
    is sent, the form that is sent, and how the answer is shown. The page is a
    state with events; a submission takes the server's answer as an input and
    reports the request it sent. */
module GeneratePage {
  import opened Js
  import opened Auth

  /** `'edit'` (image plus prompt) or `'zero'` (generation from scratch). */
  datatype Mode = Edit | Zero

  const MaxPromptLength := 300
  const MinPromptLength := 3
  const SelectImageError := "Selecione uma imagem."
  const InvalidPromptError := "Digite um prompt válido."
  const ShortPromptError := "O prompt deve ter pelo menos 3 caracteres."
  const GenerateFailedError := "Erro ao gerar imagem"

  /** The mode as the form sends it. */
  function ModeName(m: Mode): (s: string)
    ensures |s| == 4
    ensures m == Edit <==> s == "edit"
  {
    match m
    case Edit => "edit"
    case Zero => "zero"
  }

  /** The JSON body of an answer, as far as the page reads it. */
  datatype ReplyData = ReplyData(error: Option<string>, originalUrl: Option<string>, generatedUrl: Option<string>,
                                 prompt: Option<string>)

  /** How `fetch` and `res.json()` turn out: one of them throws, or the answer
      arrives with its `ok` flag and its body. */
  datatype FetchOutcome = FetchThrows(message: string) | Replied(ok: bool, data: ReplyData)

  /** The page state the rules touch: mode, chosen file, the preview's data URL,
      prompt text, the error line and the result shown. */
  datatype PageState = PageState(mode: Mode, file: Option<File>, preview: Option<string>, prompt: string,
                                 error: string, result: Option<ReplyData>)

  const Initial := PageState(Edit, None, None, "", "", None)

  datatype Event =
    | SelectEdit
    | SelectZero
    | ChooseFile(chosen: Option<File>)
    | PreviewLoaded(dataUrl: string)
    | TypePrompt(text: string)

  /** The text the prompt box holds after typing: `maxLength={300}` cuts it. */
  function Capped(text: string): (r: string)
    ensures |r| <= MaxPromptLength
    ensures r <= text
    ensures |text| <= MaxPromptLength ==> r == text
  {
    if |text| <= MaxPromptLength then text else text[..MaxPromptLength]
  }

  /** One event. Switching to zero mode drops the chosen file and its preview;
      the file input only exists in edit mode, so choosing a file in zero mode
      does nothing. Choosing a file starts a `FileReader`, whose result arrives
      later as `PreviewLoaded`; clearing the choice clears the preview at once. */
  function Step(s: PageState, e: Event): (r: PageState)
    ensures e.SelectZero? ==> r == s.(mode := Zero, file := None, preview := None)
    ensures e.SelectEdit? ==> r == s.(mode := Edit)
    ensures e.ChooseFile? && s.mode == Edit ==> r.file == e.chosen && r.error == "" && r.result.None?
                                                && (e.chosen.None? ==> r.preview.None?)
                                                && (e.chosen.Some? ==> r.preview == s.preview)
                                                && r.mode == s.mode && r.prompt == s.prompt
    ensures e.PreviewLoaded? ==> r == s.(preview := Some(e.dataUrl))
    ensures e.ChooseFile? && s.mode == Zero ==> r == s
    ensures e.TypePrompt? ==> r == s.(prompt := Capped(e.text))
    ensures !e.TypePrompt? ==> r.prompt == s.prompt
  {
    match e
    case SelectEdit => s.(mode := Edit)
    case SelectZero => s.(mode := Zero, file := None, preview := None)
    case ChooseFile(chosen) =>
      if s.mode != Edit then s
      else if chosen.None? then s.(file := None, preview := None, result := None, error := "")
      else s.(file := chosen, result := None, error := "")
    case PreviewLoaded(dataUrl) => s.(preview := Some(dataUrl))
    case TypePrompt(text) => s.(prompt := Capped(text))
  }

  /** What holds in every state the page can reach: no file in zero mode, and a
      prompt of at most 300 characters. */
  predicate Invariant(s: PageState) {
    (s.mode == Zero ==> s.file.None?) && |s.prompt| <= MaxPromptLength
  }

  function Run(s: PageState, es: seq<Event>): PageState
    decreases |es|
  {
    if es == [] then s else Run(Step(s, es[0]), es[1..])
  }

  lemma StepKeepsInvariant(s: PageState, e: Event)
    requires Invariant(s)
    ensures Invariant(Step(s, e))
  {
  }

  /** Every state reached from the initial one by user events satisfies the invariant. */
  lemma {:induction false} RunKeepsInvariant(s: PageState, es: seq<Event>)
    requires Invariant(s)
    ensures Invariant(Run(s, es))
    decreases |es|
  {
    if es != [] {
      StepKeepsInvariant(s, es[0]);
      RunKeepsInvariant(Step(s, es[0]), es[1..]);
    }
  }

  lemma ReachableStatesKeepInvariant(es: seq<Event>)
    ensures Invariant(Run(Initial, es))
  {
    RunKeepsInvariant(Initial, es);
  }

  /** A preview whose reader finishes after the switch to zero mode survives it:
      back in edit mode the page shows a preview while no file is chosen. */
  lemma LatePreviewOutlivesZeroSwitch(s: PageState, f: File, dataUrl: string)
    requires s.mode == Edit
    ensures var t := Run(s, [ChooseFile(Some(f)), SelectZero, PreviewLoaded(dataUrl), SelectEdit]);
            t.mode == Edit && t.file.None? && t.preview == Some(dataUrl)
  {
    var es := [ChooseFile(Some(f)), SelectZero, PreviewLoaded(dataUrl), SelectEdit];
    var s1 := Step(s, ChooseFile(Some(f)));
    var s2 := Step(s1, SelectZero);
    var s3 := Step(s2, PreviewLoaded(dataUrl));
    var s4 := Step(s3, SelectEdit);
    assert es[1..] == [SelectZero, PreviewLoaded(dataUrl), SelectEdit];
    assert es[1..][1..] == [PreviewLoaded(dataUrl), SelectEdit];
    assert es[1..][1..][1..] == [SelectEdit];
    assert Run(s3, [SelectEdit]) == Run(s4, []) == s4;
    assert Run(s2, es[1..][1..]) == Run(s3, [SelectEdit]);
    assert Run(s1, es[1..]) == Run(s2, es[1..][1..]);
    assert Run(s, es) == Run(s1, es[1..]);
  }

  /** The checks `handleGenerate` makes before building the form, in order:
      an image in edit mode, a prompt that is not blank once trimmed, and at
      least three characters after trimming. */
  function Validate(s: PageState): (err: Option<string>)
    ensures s.mode == Edit && s.file.None? ==> err == Some(SelectImageError)
    ensures (s.mode == Zero || s.file.Some?) && Trim(s.prompt) == "" ==> err == Some(InvalidPromptError)
    ensures (s.mode == Zero || s.file.Some?) && 1 <= |Trim(s.prompt)| < MinPromptLength ==> err == Some(ShortPromptError)
    ensures err.None? <==> (s.mode == Zero || s.file.Some?) && |Trim(s.prompt)| >= MinPromptLength
  {
    var trimmed := Trim(s.prompt);
    if s.mode == Edit && s.file.None? then Some(SelectImageError)
    else if trimmed == [] then Some(InvalidPromptError)
    else if |trimmed| < MinPromptLength then Some(ShortPromptError)
    else
      assert s.mode == Zero || s.file.Some?;
      assert |trimmed| >= MinPromptLength;
      None
  }

  /** The form sent: the image (edit mode with a file only), then the trimmed
      prompt, then the mode. */
  function BuildForm(s: PageState): (f: FormData)
    ensures FormGet(f, "prompt") == Some(TextValue(Trim(s.prompt)))
    ensures FormGet(f, "mode") == Some(TextValue(ModeName(s.mode)))
    ensures FormGet(f, "image").Some? <==> s.mode == Edit && s.file.Some?
    ensures FormGet(f, "image").Some? ==> FormGet(f, "image") == Some(FileValue(s.file.value))
    ensures |f| == if s.mode == Edit && s.file.Some? then 3 else 2
  {
    var fields := [("prompt", TextValue(Trim(s.prompt))), ("mode", TextValue(ModeName(s.mode)))];
    FormFieldsRead(Trim(s.prompt), ModeName(s.mode));
    if s.mode == Edit && s.file.Some? then
      var f := [("image", FileValue(s.file.value))] + fields;
      assert f[1..] == fields;
      assert f[0].0 == "image" != "prompt" && "image" != "mode";
      f
    else fields
  }

  lemma FormFieldsRead(prompt: string, mode: string)
    ensures var fields := [("prompt", TextValue(prompt)), ("mode", TextValue(mode))];
            && FormGet(fields, "prompt") == Some(TextValue(prompt))
            && FormGet(fields, "mode") == Some(TextValue(mode))
            && FormGet(fields, "image").None?
  {
    var fields := [("prompt", TextValue(prompt)), ("mode", TextValue(mode))];
    assert fields[1..] == [("mode", TextValue(mode))];
    assert "prompt" != "mode" && "prompt" != "image" && "mode" != "image";
  }

  /** The request a submission sends. */
  datatype Outgoing = Outgoing(authorization: string, form: FormData)

  datatype Submitted = Submitted(state: PageState, sent: Option<Outgoing>)

  /** Submitting the form. The prompt box is `required`, so the browser does not
      submit an empty one. A failed check shows its message and sends nothing;
      otherwise the form is sent with the stored token and `reply` is the answer:
      a body with `ok` set is shown as the result, anything else shows
      `data.error`, or "Erro ao gerar imagem" when that is missing or empty. */
  function Submit(s: PageState, token: Option<string>, reply: FetchOutcome): (r: Submitted)
    ensures s.prompt == "" ==> r == Submitted(s, None)
    ensures s.prompt != "" && Validate(s).Some? ==>
              r.sent.None? && r.state.error == Validate(s).value && r.state.result.None?
    ensures r.sent.Some? <==> s.prompt != "" && Validate(s).None?
    ensures r.sent.Some? ==> r.sent.value == Outgoing(ClientAuthorization(token), BuildForm(s))
    ensures r.sent.Some? ==> (r.state.result.Some? <==> reply.Replied? && reply.ok)
    ensures r.sent.Some? && r.state.result.Some? ==> r.state.result.value == reply.data && r.state.error == ""
    ensures r.sent.Some? && reply.Replied? && !reply.ok ==>
              r.state.error == (if Present(reply.data.error) then reply.data.error.value else GenerateFailedError)
    ensures r.sent.Some? && reply.FetchThrows? ==> r.state.error == reply.message
    ensures r.state.mode == s.mode && r.state.file == s.file && r.state.prompt == s.prompt
  {
    if s.prompt == "" then Submitted(s, None)
    else
      var cleared := s.(error := "", result := None);
      match Validate(s)
      case Some(message) => Submitted(cleared.(error := message), None)
      case None =>
        var sent := Some(Outgoing(ClientAuthorization(token), BuildForm(s)));
        match reply
        case FetchThrows(message) => Submitted(cleared.(error := message), sent)
        case Replied(ok, data) =>
          if !ok then Submitted(cleared.(error := OrElse(data.error, GenerateFailedError)), sent)
          else Submitted(cleared.(result := Some(data)), sent)
  }

  /** A prompt of only spaces is refused on the page although the server would
      accept it: the page trims, the server only checks for emptiness. */
  lemma BlankPromptRefused(s: PageState, token: Option<string>, reply: FetchOutcome)
    requires s.prompt != "" && AllWhitespace(s.prompt) && (s.mode == Zero || s.file.Some?)
    ensures Submit(s, token, reply) == Submitted(s.(error := InvalidPromptError, result := None), None)
  {
    TrimEmptyIffAllWhitespace(s.prompt);
  }

  /** A form sent from zero mode never carries an image, whatever was chosen before. */
  lemma ZeroModeSendsNoImage(s: PageState, token: Option<string>, reply: FetchOutcome)
    requires s.mode == Zero
    ensures var r := Submit(s, token, reply);
            r.sent.Some? ==> FormGet(r.sent.value.form, "image").None?
  {
  }
}

=== FILE: generation.dfy ===
/** `handleImageGeneration` (src/app/api/image/upload/route.ts): the
    generation request handler behind `POST /api/image/upload`.

    Every outside call is an oracle held in a `World`: how the two storage
    uploads, the image provider, the download of the provider's image and the
    database insert turn out, plus the two fresh uuids. The handler is then a
    pure function that returns the response together with the ordered list of
    calls it made, so that "before any call" and "uploads these bytes" can be
    stated. */
module Generation {
  import opened Js
  import opened Storage
  import opened Auth

  const PromptRequiredError := "Prompt é obrigatório"
  const DbSaveError := "Erro ao salvar no banco de dados"
  const InternalError := "Erro interno do servidor"
  const EditMode := "edit"
  const ImageSize := "1024x1024"
  const ImageCount := 1
  const CreateModel := "dall-e-3"

  /** The three form fields the handler reads. */
  datatype FormFields = FormFields(prompt: Option<string>, mode: Option<string>, image: Option<File>)

  /** The request body: a form the server could not parse, or its fields. */
  datatype FormInput = UnreadableForm(message: string) | ReadableForm(fields: FormFields)

  /** `formData.get` of the three fields; a value of the wrong kind reads as absent. */
  function ReadFields(entries: FormData): (f: FormFields)
    ensures f.prompt.Some? <==> FormGet(entries, "prompt").Some? && FormGet(entries, "prompt").value.TextValue?
    ensures f.prompt.Some? ==> FormGet(entries, "prompt") == Some(TextValue(f.prompt.value))
    ensures f.mode.Some? <==> FormGet(entries, "mode").Some? && FormGet(entries, "mode").value.TextValue?
    ensures f.mode.Some? ==> FormGet(entries, "mode") == Some(TextValue(f.mode.value))
    ensures f.image.Some? <==> FormGet(entries, "image").Some? && FormGet(entries, "image").value.FileValue?
    ensures f.image.Some? ==> FormGet(entries, "image") == Some(FileValue(f.image.value))
  {
    FormFields(TextField(entries, "prompt"), TextField(entries, "mode"), FileField(entries, "image"))
  }

  function TextField(entries: FormData, key: string): Option<string> {
    match FormGet(entries, key)
    case Some(TextValue(t)) => Some(t)
    case _ => None
  }

  function FileField(entries: FormData, key: string): Option<File> {
    match FormGet(entries, key)
    case Some(FileValue(f)) => Some(f)
    case _ => None
  }

  // ---------------------------------------------------------------------------
  // Oracles

  /** `openai.images.edit` / `openai.images.generate`: the call throws (a missing
      API key included), or answers with `data[0].url` possibly missing. */
  datatype ProviderOutcome = ProviderThrows | ProviderAnswered(firstUrl: Option<string>)

  /** `fetch(url)` followed by `arrayBuffer()`. */
  datatype DownloadOutcome = DownloadThrows | Downloaded(bytes: seq<byte>)

  /** `prisma.generation.create`: the database assigns `id` and `createdAt`. */
  datatype DbOutcome = DbThrows | DbInserted(id: string, createdAt: int)

  datatype World = World(
    storage: StorageEnv,
    originalBackend: BackendOutcome,
    generatedBackend: BackendOutcome,
    provider: ProviderOutcome,
    download: DownloadOutcome,
    db: DbOutcome,
    originalId: string,
    generatedId: string)

  // ---------------------------------------------------------------------------
  // Calls made and responses

  datatype ProviderRequest =
    | EditImage(image: seq<byte>, prompt: string, n: nat, size: string)
    | GenerateImage(model: string, prompt: string, n: nat, size: string)

  /** The row handed to the database. */
  datatype NewGeneration = NewGeneration(prompt: string, originalUrl: Option<StoredUrl>, generatedUrl: StoredUrl, user: string)

  /** One outside call of the handler, in the order made. */
  datatype Effect =
    | StorageUpload(filename: string, bytes: seq<byte>)
    | ProviderCall(request: ProviderRequest)
    | DownloadCall(url: string)
    | DbCreate(row: NewGeneration)

  /** The fields every successful answer carries. */
  datatype Body = Body(originalUrl: Option<StoredUrl>, generatedUrl: StoredUrl, prompt: string, mode: Option<string>, user: string)

  datatype GenerationResponse =
    | BadRequest(error: string)
    | Saved(id: string, createdAt: int, body: Body)
    | Unsaved(body: Body, error: string)
    | ServerError(error: string)

  function Status(r: GenerationResponse): int {
    match r
    case BadRequest(_) => 400
    case ServerError(_) => 500
    case _ => 200
  }

  datatype Handled = Handled(response: GenerationResponse, effects: seq<Effect>)

  // ---------------------------------------------------------------------------
  // The generated artifact

  function OriginalName(w: World): string {
    "original/" + w.originalId + ".png"
  }

  function GeneratedName(w: World): string {
    "generated/" + w.generatedId + ".png"
  }

  /** The provider request: an edit of the source image when there is one, a
      fresh generation otherwise. */
  function RequestFor(prompt: string, source: Option<seq<byte>>): (q: ProviderRequest)
    ensures q.prompt == prompt && q.n == ImageCount && q.size == ImageSize
    ensures q.EditImage? <==> source.Some?
    ensures q.EditImage? ==> q.image == source.value
    ensures q.GenerateImage? ==> q.model == CreateModel
  {
    match source
    case Some(bytes) => EditImage(bytes, prompt, ImageCount, ImageSize)
    case None => GenerateImage(CreateModel, prompt, ImageCount, ImageSize)
  }

  /** What the fallback uploads: the source image when editing, an empty buffer otherwise. */
  function FallbackBytes(source: Option<seq<byte>>): seq<byte> {
    match source
    case Some(bytes) => bytes
    case None => []
  }

  /** The provider produced an image: it answered with a truthy `data[0].url` and the download worked. */
  predicate ProviderSucceeded(w: World) {
    w.provider.ProviderAnswered? && Present(w.provider.firstUrl) && w.download.Downloaded?
  }

  /** The bytes stored as the generated image. */
  function GeneratedBytes(source: Option<seq<byte>>, w: World): seq<byte> {
    if ProviderSucceeded(w) then w.download.bytes else FallbackBytes(source)
  }

  datatype Artifact = Artifact(url: StoredUrl, effects: seq<Effect>)

  /** The provider step of both branches (lines 89-116 and 119-146): call the
      provider, download its image and store it; on any failure store the
      fallback bytes instead. The step never fails. */
  function GenerateArtifact(prompt: string, source: Option<seq<byte>>, w: World): (a: Artifact)
    ensures a.url == UploadToGcs(w.storage, w.generatedBackend, GeneratedBytes(source, w), GeneratedName(w)).url
    ensures |a.effects| >= 2 && a.effects[0] == ProviderCall(RequestFor(prompt, source))
    ensures a.effects[|a.effects| - 1] == StorageUpload(GeneratedName(w), GeneratedBytes(source, w))
    ensures forall k :: 0 <= k < |a.effects| ==> !a.effects[k].DbCreate?
  {
    var request := ProviderCall(RequestFor(prompt, source));
    var name := GeneratedName(w);
    match w.provider
    case ProviderThrows => Fallback(source, w, [request])
    case ProviderAnswered(url) =>
      if !Present(url) then Fallback(source, w, [request])
      else
        match w.download
        case DownloadThrows => Fallback(source, w, [request, DownloadCall(url.value)])
        case Downloaded(bytes) =>
          Artifact(UploadToGcs(w.storage, w.generatedBackend, bytes, name).url,
                   [request, DownloadCall(url.value), StorageUpload(name, bytes)])
  }

  function Fallback(source: Option<seq<byte>>, w: World, before: seq<Effect>): Artifact {
    var bytes := FallbackBytes(source);
    Artifact(UploadToGcs(w.storage, w.generatedBackend, bytes, GeneratedName(w)).url,
             before + [StorageUpload(GeneratedName(w), bytes)])
  }

  // ---------------------------------------------------------------------------
  // The handler

  /** The branch taken: edit only when the mode is `"edit"` and an image was sent. */
  predicate Editing(f: FormFields) {
    f.mode == Some(EditMode) && f.image.Some?
  }

  function SourceOf(f: FormFields): (s: Option<seq<byte>>)
    ensures s.Some? <==> Editing(f)
  {
    if Editing(f) then Some(f.image.value.bytes) else None
  }

  /** `handleImageGeneration(request)` for the user `withAuth` attached. */
  function HandleImageGeneration(user: Claims, form: FormInput, w: World): (h: Handled)
    ensures form.UnreadableForm? ==> h.response.ServerError? && h.effects == []
    ensures form.ReadableForm? ==> !h.response.ServerError?
  {
    match form
    case UnreadableForm(message) => Handled(ServerError(OrElse(Some(message), InternalError)), [])
    case ReadableForm(f) =>
      if !Present(f.prompt) then Handled(BadRequest(PromptRequiredError), [])
      else
        var prompt := f.prompt.value;
        var source := SourceOf(f);
        var originalUrl :=
          if Editing(f) then Some(UploadToGcs(w.storage, w.originalBackend, source.value, OriginalName(w)).url) else None;
        var originalUpload := if Editing(f) then [StorageUpload(OriginalName(w), source.value)] else [];
        var art := GenerateArtifact(prompt, source, w);
        var body := Body(originalUrl, art.url, prompt, f.mode, user.username);
        var row := NewGeneration(prompt, originalUrl, art.url, user.username);
        var effects := originalUpload + art.effects + [DbCreate(row)];
        match w.db
        case DbThrows => Handled(Unsaved(body, DbSaveError), effects)
        case DbInserted(id, createdAt) => Handled(Saved(id, createdAt, body), effects)
  }

  /** `POST /api/image/upload`: the handler behind `withAuth`. */
  function UploadPost(req: Request<FormInput>, jwtSecretEnv: Option<string>, verify: Verifier, w: World): (g: Gated<Handled>)
    ensures g.Denied? <==> VerifyToken(req.authorization, jwtSecretEnv, verify).AuthFailed?
    ensures g.Denied? ==> g.error == VerifyToken(req.authorization, jwtSecretEnv, verify).error
                          && g.status == VerifyToken(req.authorization, jwtSecretEnv, verify).status == 401
    ensures g.Passed? ==> var v := VerifyToken(req.authorization, jwtSecretEnv, verify);
                          v.Authenticated? && g.response == HandleImageGeneration(v.user, req.body, w)
  {
    WithAuth((a: AuthedRequest<FormInput>) => HandleImageGeneration(a.user, a.request.body, w), req, jwtSecretEnv, verify)
  }

  // ---------------------------------------------------------------------------
  // Properties

  /** A missing or empty prompt is a 400 with "Prompt é obrigatório", answered
      before any upload, provider call or database call. */
  lemma PromptRequired(user: Claims, f: FormFields, w: World)
    requires !Present(f.prompt)
    ensures HandleImageGeneration(user, ReadableForm(f), w) == Handled(BadRequest(PromptRequiredError), [])
    ensures Status(HandleImageGeneration(user, ReadableForm(f), w).response) == 400
  {
  }

  /** The server checks only that the prompt is truthy: a whitespace-only prompt is processed. */
  lemma WhitespacePromptAccepted(user: Claims, mode: Option<string>, image: Option<File>, w: World)
    ensures HandleImageGeneration(user, ReadableForm(FormFields(Some(" "), mode, image)), w).response.body.prompt == " "
  {
  }

  /** Any readable form with a prompt gets a 200 answer carrying a generated URL,
      whatever the provider, the storage and the database do. */
  lemma AlwaysAnswersWithGeneratedUrl(user: Claims, f: FormFields, w: World)
    requires Present(f.prompt)
    ensures HandleImageGeneration(user, ReadableForm(f), w).response.Saved?
            || HandleImageGeneration(user, ReadableForm(f), w).response.Unsaved?
    ensures Status(HandleImageGeneration(user, ReadableForm(f), w).response) == 200
    ensures HandleImageGeneration(user, ReadableForm(f), w).response.body.prompt == f.prompt.value
  {
  }

  /** `originalUrl` is present exactly in edit mode with an image, and it is the
      upload of that image under `original/<uuid>.png`, made before any provider call. */
  lemma OriginalUrlIffEditWithImage(user: Claims, f: FormFields, w: World)
    requires Present(f.prompt)
    ensures var h := HandleImageGeneration(user, ReadableForm(f), w);
            && (h.response.body.originalUrl.Some? <==> f.mode == Some(EditMode) && f.image.Some?)
            && (h.response.body.originalUrl.Some? ==>
                  && h.response.body.originalUrl.value
                     == UploadToGcs(w.storage, w.originalBackend, f.image.value.bytes, OriginalName(w)).url
                  && h.effects[0] == StorageUpload(OriginalName(w), f.image.value.bytes)
                  && h.effects[1].ProviderCall?)
            && (h.response.body.originalUrl.None? ==> h.effects[0].ProviderCall?)
  {
  }

  /** Edit mode without an image takes the from-scratch branch: a `dall-e-3`
      generation request, no original upload. */
  lemma EditWithoutImageGenerates(user: Claims, prompt: string, w: World)
    requires prompt != ""
    ensures var h := HandleImageGeneration(user, ReadableForm(FormFields(Some(prompt), Some(EditMode), None)), w);
            && h.effects[0] == ProviderCall(GenerateImage(CreateModel, prompt, ImageCount, ImageSize))
            && h.response.body.originalUrl.None?
  {
  }

  /** When the provider throws, answers without a truthy URL, or its image cannot
      be downloaded, the generated URL is the storage of the fallback bytes: the
      original image in edit mode, an empty buffer otherwise. */
  lemma ProviderFailureFallsBack(user: Claims, f: FormFields, w: World)
    requires Present(f.prompt)
    requires !ProviderSucceeded(w)
    ensures var h := HandleImageGeneration(user, ReadableForm(f), w);
            && h.response.body.generatedUrl
               == UploadToGcs(w.storage, w.generatedBackend, FallbackBytes(SourceOf(f)), GeneratedName(w)).url
            && (Editing(f) ==> StorageUpload(GeneratedName(w), f.image.value.bytes) in h.effects)
            && (!Editing(f) ==> StorageUpload(GeneratedName(w), []) in h.effects)
  {
    var h := HandleImageGeneration(user, ReadableForm(f), w);
    var art := GenerateArtifact(f.prompt.value, SourceOf(f), w);
    var pre := if Editing(f) then [StorageUpload(OriginalName(w), SourceOf(f).value)] else [];
    assert h.effects == pre + art.effects + [h.effects[|h.effects| - 1]];
    assert art.effects[|art.effects| - 1] in h.effects by {
      assert h.effects[|pre| + |art.effects| - 1] == art.effects[|art.effects| - 1];
    }
  }

  /** When the provider succeeds, the downloaded bytes are what gets stored. */
  lemma ProviderSuccessStoresDownload(user: Claims, f: FormFields, w: World)
    requires Present(f.prompt)
    requires ProviderSucceeded(w)
    ensures var h := HandleImageGeneration(user, ReadableForm(f), w);
            h.response.body.generatedUrl
              == UploadToGcs(w.storage, w.generatedBackend, w.download.bytes, GeneratedName(w)).url
  {
  }

  /** A database insert that works answers with the database's `id` and
      `createdAt` and the username; the row stored carries the same URLs and
      `originalUrl || null` (the adapter never returns an empty URL). The row is
      the last call made. */
  lemma DbSuccessAnswer(user: Claims, f: FormFields, w: World)
    requires Present(f.prompt)
    requires w.db.DbInserted?
    ensures var h := HandleImageGeneration(user, ReadableForm(f), w);
            && h.response.Saved?
            && h.response.id == w.db.id && h.response.createdAt == w.db.createdAt
            && h.response.body.user == user.username
            && h.effects[|h.effects| - 1]
               == DbCreate(NewGeneration(f.prompt.value, h.response.body.originalUrl, h.response.body.generatedUrl, user.username))
            && (h.response.body.originalUrl.Some? ==> Href(h.response.body.originalUrl.value) != "")
  {
  }

  /** A database failure still answers 200 with the URLs, without an id, and
      with the advisory error "Erro ao salvar no banco de dados". */
  lemma DbFailureAnswer(user: Claims, f: FormFields, w1: World, w2: World)
    requires Present(f.prompt)
    requires w1.db.DbThrows? && w2.db.DbInserted?
    requires w1.(db := w2.db) == w2
    ensures var h1 := HandleImageGeneration(user, ReadableForm(f), w1);
            var h2 := HandleImageGeneration(user, ReadableForm(f), w2);
            && h1.response == Unsaved(h2.response.body, DbSaveError)
            && Status(h1.response) == 200
            && h1.effects == h2.effects
  {
  }

  /** Only an unreadable request body is a 500; its message falls back to
      "Erro interno do servidor" when empty. */
  lemma ServerErrorOnlyForUnreadableForm(user: Claims, form: FormInput, w: World)
    ensures Status(HandleImageGeneration(user, form, w).response) == 500 <==> form.UnreadableForm?
    ensures form == UnreadableForm("") ==> HandleImageGeneration(user, form, w).response == ServerError(InternalError)
  {
  }

  /** The order of calls: original upload (edit only), provider call, download
      (only once a URL came back), generated upload, database insert. Exactly one
      provider call and one database insert are made. */
  lemma CallOrder(user: Claims, f: FormFields, w: World)
    requires Present(f.prompt)
    ensures var h := HandleImageGeneration(user, ReadableForm(f), w);
            var pre := if Editing(f) then [StorageUpload(OriginalName(w), f.image.value.bytes)] else [];
            var download := if w.provider.ProviderAnswered? && Present(w.provider.firstUrl)
                            then [DownloadCall(w.provider.firstUrl.value)] else [];
            h.effects == pre + [ProviderCall(RequestFor(f.prompt.value, SourceOf(f)))] + download
                         + [StorageUpload(GeneratedName(w), GeneratedBytes(SourceOf(f), w))]
                         + [DbCreate(NewGeneration(f.prompt.value, h.response.body.originalUrl,
                                                   h.response.body.generatedUrl, user.username))]
  {
  }

  /** A request without a valid token is answered 401 before the handler runs. */
  lemma UnauthenticatedUploadDenied(req: Request<FormInput>, jwtSecretEnv: Option<string>, verify: Verifier, w: World)
    requires BearerToken(req.authorization).None?
    ensures UploadPost(req, jwtSecretEnv, verify, w) == Denied(MissingTokenError, 401)
  {
  }
}

=== FILE: history_api.dfy ===
/** `handleHistory` (src/app/api/image/history/route.ts): the history query
    behind `GET /api/image/history`. The database's `findMany`/`count` pair is
    modelled on the table's rows as a sequence: filter with the `where`
    object, order by `createdAt` descending, skip and take. */
module HistoryApi {
  import opened Js
  import opened Auth

  const DefaultPage := 1
  const DefaultPageSize := 6
  const InternalError := "Erro interno do servidor"

  /** A row of the generations table. */
  datatype Record = Record(id: string, prompt: string, originalUrl: Option<string>, generatedUrl: string,
                           user: string, createdAt: int)

  /** The query parameters after parsing: `page` and `pageSize` when given,
      the prompt filter (`""` when absent), and the `from`/`to` bounds as
      timestamps when the parameters are non-empty. */
  datatype HistoryQuery = HistoryQuery(page: Option<nat>, pageSize: Option<nat>, prompt: string,
                                       from: Option<int>, to: Option<int>)

  /** The `where` object built from the query. */
  datatype Where = Where(promptContains: Option<string>, createdGte: Option<int>, createdLte: Option<int>)

  /** The table as the query sees it, or the error the database throws. */
  datatype Table = Rows(records: seq<Record>) | DbFailed(message: string)

  datatype HistoryResponse =
    | HistoryPage(data: seq<Record>, total: nat, page: nat, pageSize: nat, totalPages: nat)
    | HistoryFailed(error: string)

  /** `parseInt(get("page") || "1")` on an already parsed value. */
  function PageOf(q: HistoryQuery): (p: nat)
    ensures q.page.None? ==> p == DefaultPage
    ensures q.page.Some? ==> p == q.page.value
  {
    match q.page
    case None => DefaultPage
    case Some(p) => p
  }

  /** `parseInt(get("pageSize") || "6")` on an already parsed value. */
  function PageSizeOf(q: HistoryQuery): (s: nat)
    ensures q.pageSize.None? ==> s == DefaultPageSize
    ensures q.pageSize.Some? ==> s == q.pageSize.value
  {
    match q.pageSize
    case None => DefaultPageSize
    case Some(s) => s
  }

  /** `(page - 1) * pageSize`: the matches on earlier pages. */
  function SkipOf(q: HistoryQuery): (skip: nat)
    requires ValidPaging(q)
  {
    var before: nat := PageOf(q) - 1;
    before * PageSizeOf(q)
  }

  /** `new Date(s).getTime()` for a non-empty `from`/`to` parameter. Date
      parsing is not modelled: the caller supplies it. */
  type DateParser = string -> int

  /** The search parameters of the request URL read into a query:
      `parseInt(get("page") || "1")`, `parseInt(get("pageSize") || "6")`,
      `get("prompt") || ""`, and a bound for each non-empty `from`/`to`.
      `None` when `page` or `pageSize` is not a plain decimal number, which
      this model leaves out. */
  function ReadQuery(params: Object, parseDate: DateParser): (q: Option<HistoryQuery>)
    ensures q.Some? <==> ParseDigits(OrElse(Lookup(params, "page"), "1")).Some?
                         && ParseDigits(OrElse(Lookup(params, "pageSize"), "6")).Some?
    ensures !Present(Lookup(params, "page")) && !Present(Lookup(params, "pageSize")) ==>
              q.Some? && PageOf(q.value) == DefaultPage && PageSizeOf(q.value) == DefaultPageSize
    ensures forall n: nat :: Lookup(params, "page") == Some(NatToString(n)) && q.Some? ==> PageOf(q.value) == n
    ensures forall n: nat :: Lookup(params, "pageSize") == Some(NatToString(n)) && q.Some? ==> PageSizeOf(q.value) == n
    ensures q.Some? ==> q.value.prompt == (if Present(Lookup(params, "prompt")) then Lookup(params, "prompt").value else "")
    ensures q.Some? ==> (q.value.from.Some? <==> Present(Lookup(params, "from")))
                        && (q.value.from.Some? ==> q.value.from.value == parseDate(Lookup(params, "from").value))
    ensures q.Some? ==> (q.value.to.Some? <==> Present(Lookup(params, "to")))
                        && (q.value.to.Some? ==> q.value.to.value == parseDate(Lookup(params, "to").value))
  {
    var page := ParseDigits(OrElse(Lookup(params, "page"), "1"));
    var pageSize := ParseDigits(OrElse(Lookup(params, "pageSize"), "6"));
    if page.None? || pageSize.None? then None
    else
      assert ParseDigits("1") == Some(1) by { ParseNatToString(1); }
      assert ParseDigits("6") == Some(6) by { ParseNatToString(6); }
      forall n: nat | Lookup(params, "page") == Some(NatToString(n))
        ensures page == Some(n)
      {
        ParseNatToString(n);
      }
      forall n: nat | Lookup(params, "pageSize") == Some(NatToString(n))
        ensures pageSize == Some(n)
      {
        ParseNatToString(n);
      }
      Some(HistoryQuery(page, pageSize, OrElse(Lookup(params, "prompt"), ""),
                        DateParam(params, "from", parseDate), DateParam(params, "to", parseDate)))
  }

  function DateParam(params: Object, key: string, parseDate: DateParser): Option<int> {
    if Present(Lookup(params, key)) then Some(parseDate(Lookup(params, key).value)) else None
  }

  /** The paging values the model covers: a page of at least 1 and a positive page size. */
  predicate ValidPaging(q: HistoryQuery) {
    (q.page.None? || q.page.value >= 1) && (q.pageSize.None? || q.pageSize.value >= 1)
  }

  /** The `where` object: a prompt condition only for a non-empty filter, and a
      date condition only for the bounds given. */
  function BuildWhere(q: HistoryQuery): (w: Where)
    ensures w.promptContains.Some? <==> q.prompt != ""
    ensures w.promptContains.Some? ==> w.promptContains.value == q.prompt
    ensures w.createdGte == q.from && w.createdLte == q.to
  {
    Where(if q.prompt != "" then Some(q.prompt) else None, q.from, q.to)
  }

  /** A record satisfies the `where` object: case-insensitive substring match on
      the prompt, inclusive bounds on `createdAt`. */
  predicate Matches(w: Where, r: Record) {
    && (w.promptContains.None? || Contains(Lower(r.prompt), Lower(w.promptContains.value)))
    && (w.createdGte.None? || r.createdAt >= w.createdGte.value)
    && (w.createdLte.None? || r.createdAt <= w.createdLte.value)
  }

  /** The records satisfying `w`, in table order. */
  function Filter(w: Where, rs: seq<Record>): (r: seq<Record>)
    ensures |r| <= |rs|
    ensures forall x :: multiset(r)[x] == if Matches(w, x) then multiset(rs)[x] else 0
  {
    if rs == [] then []
    else
      assert rs == [rs[0]] + rs[1..];
      var rest := Filter(w, rs[1..]);
      if Matches(w, rs[0]) then [rs[0]] + rest else rest
  }

  predicate SortedByCreatedDesc(rs: seq<Record>) {
    forall i, j :: 0 <= i < j < |rs| ==> rs[i].createdAt >= rs[j].createdAt
  }

  /** Insert `x` into a descending sequence before the first strictly older record. */
  function InsertDesc(x: Record, rs: seq<Record>): (r: seq<Record>)
    requires SortedByCreatedDesc(rs)
    ensures SortedByCreatedDesc(r)
    ensures multiset(r) == multiset(rs) + multiset{x}
    ensures |r| == |rs| + 1 && (r[0] == x || (rs != [] && r[0] == rs[0]))
  {
    if rs == [] then
      assert multiset([x]) == multiset{x};
      [x]
    else if rs[0].createdAt < x.createdAt then
      SortedCons(x, rs);
      assert multiset([x] + rs) == multiset([x]) + multiset(rs);
      [x] + rs
    else
      assert rs == [rs[0]] + rs[1..];
      var rest := InsertDesc(x, rs[1..]);
      assert rest[0].createdAt <= rs[0].createdAt;
      SortedCons(rs[0], rest);
      ConsKeepsInsertion(rs[0], rs[1..], rest, x);
      [rs[0]] + rest
  }

  lemma ConsKeepsInsertion(h: Record, a: seq<Record>, b: seq<Record>, x: Record)
    requires multiset(b) == multiset(a) + multiset{x}
    ensures multiset([h] + b) == multiset([h] + a) + multiset{x}
  {
    assert multiset([h] + b) == multiset([h]) + multiset(b);
    assert multiset([h] + a) == multiset([h]) + multiset(a);
  }

  /** A record no older than the head of a descending sequence can go in front of it. */
  lemma SortedCons(x: Record, rs: seq<Record>)
    requires SortedByCreatedDesc(rs) && (rs == [] || rs[0].createdAt <= x.createdAt)
    ensures SortedByCreatedDesc([x] + rs)
  {
    var r := [x] + rs;
    forall i, j | 0 <= i < j < |r|
      ensures r[i].createdAt >= r[j].createdAt
    {
      assert r[j] == rs[j - 1];
      if i > 0 {
        assert r[i] == rs[i - 1];
      } else if j > 1 {
        assert rs[0].createdAt >= rs[j - 1].createdAt;
      }
    }
  }

  /** `orderBy: { createdAt: 'desc' }`. Records with equal timestamps come out in
      reverse table order; the database leaves their order open. */
  function SortByCreatedDesc(rs: seq<Record>): (r: seq<Record>)
    ensures SortedByCreatedDesc(r)
    ensures multiset(r) == multiset(rs)
  {
    if rs == [] then []
    else
      assert rs == [rs[0]] + rs[1..];
      InsertDesc(rs[0], SortByCreatedDesc(rs[1..]))
  }

  /** Two records with the same timestamp come out in reverse table order. */
  lemma EqualTimestampsReversed(a: Record, b: Record)
    requires a.createdAt == b.createdAt
    ensures SortByCreatedDesc([a, b]) == [b, a]
  {
    assert [a, b][1..] == [b];
    assert SortByCreatedDesc([b]) == [b];
  }

  /** `skip` then `take` on an ordered result. */
  function SkipTake(rs: seq<Record>, skip: nat, take: nat): (r: seq<Record>)
    ensures |r| <= take
    ensures skip >= |rs| ==> r == []
    ensures skip < |rs| ==> |r| == Min(take, |rs| - skip)
    ensures forall j :: 0 <= j < |r| ==> skip + j < |rs| && r[j] == rs[skip + j]
  {
    if skip >= |rs| then [] else rs[skip..Min(skip + take, |rs|)]
  }

  /** The ordered, filtered records: what the pages are cut from. */
  function Ordered(q: HistoryQuery, rs: seq<Record>): seq<Record> {
    SortByCreatedDesc(Filter(BuildWhere(q), rs))
  }

  /** `handleHistory(request)`. The requesting user is read but plays no part. */
  function HandleHistory(user: Claims, q: HistoryQuery, table: Table): (r: HistoryResponse)
    requires ValidPaging(q)
    ensures table.DbFailed? ==> r == HistoryFailed(OrElse(Some(table.message), InternalError))
    ensures table.Rows? ==> r.HistoryPage? && r.page == PageOf(q) && r.pageSize == PageSizeOf(q)
    ensures r.HistoryPage? ==> |r.data| <= r.pageSize
  {
    match table
    case DbFailed(message) => HistoryFailed(OrElse(Some(message), InternalError))
    case Rows(rs) =>
      var pageSize := PageSizeOf(q);
      var total := |Filter(BuildWhere(q), rs)|;
      HistoryPage(SkipTake(Ordered(q, rs), SkipOf(q), pageSize), total, PageOf(q), pageSize, CeilDiv(total, pageSize))
  }

  // ---------------------------------------------------------------------------
  // Properties

  /** Absent `page` and `pageSize` default to 1 and 6. */
  lemma Defaults(user: Claims, prompt: string, from: Option<int>, to: Option<int>, rs: seq<Record>)
    ensures var r := HandleHistory(user, HistoryQuery(None, None, prompt, from, to), Rows(rs));
            r.page == 1 && r.pageSize == 6
  {
  }

  /** The rows returned are matching records of the table, newest first, and
      exactly the slice of the ordered matches from `(page - 1) * pageSize`. */
  lemma RowsAreOrderedSlice(user: Claims, q: HistoryQuery, rs: seq<Record>)
    requires ValidPaging(q)
    ensures var r := HandleHistory(user, q, Rows(rs));
            && |r.data| <= PageSizeOf(q)
            && SortedByCreatedDesc(r.data)
            && (forall j :: 0 <= j < |r.data| ==> r.data[j] in rs && Matches(BuildWhere(q), r.data[j]))
            && (forall j :: 0 <= j < |r.data| ==> SkipOf(q) + j < |Ordered(q, rs)| && r.data[j] == Ordered(q, rs)[SkipOf(q) + j])
  {
    DataIsSlice(user, q, rs);
    OrderedMatches(q, rs);
  }

  /** The rows are the page's slice of the ordered matches. */
  lemma DataIsSlice(user: Claims, q: HistoryQuery, rs: seq<Record>)
    requires ValidPaging(q)
    ensures HandleHistory(user, q, Rows(rs)).data == SkipTake(Ordered(q, rs), SkipOf(q), PageSizeOf(q))
  {
  }

  /** Every ordered match is a record of the table that satisfies the filter. */
  lemma OrderedMatches(q: HistoryQuery, rs: seq<Record>)
    ensures forall k :: 0 <= k < |Ordered(q, rs)| ==> Ordered(q, rs)[k] in rs && Matches(BuildWhere(q), Ordered(q, rs)[k])
  {
    var f := Filter(BuildWhere(q), rs);
    var o := Ordered(q, rs);
    forall k | 0 <= k < |o|
      ensures o[k] in rs && Matches(BuildWhere(q), o[k])
    {
      assert o[k] in multiset(o);
      assert multiset(f)[o[k]] > 0;
    }
  }

  /** `total` counts every matching record, whatever the page. */
  lemma TotalCountsAllMatches(user: Claims, q1: HistoryQuery, q2: HistoryQuery, rs: seq<Record>)
    requires ValidPaging(q1) && ValidPaging(q2)
    requires q1.prompt == q2.prompt && q1.from == q2.from && q1.to == q2.to
    ensures HandleHistory(user, q1, Rows(rs)).total == HandleHistory(user, q2, Rows(rs)).total
    ensures HandleHistory(user, q1, Rows(rs)).total == |Filter(BuildWhere(q1), rs)|
    ensures forall x :: multiset(Filter(BuildWhere(q1), rs))[x] == if Matches(BuildWhere(q1), x) then multiset(rs)[x] else 0
  {
  }

  /** `totalPages` is `ceil(total / pageSize)`: the fewest pages that hold every match. */
  lemma TotalPagesIsCeiling(user: Claims, q: HistoryQuery, rs: seq<Record>)
    requires ValidPaging(q)
    ensures var r := HandleHistory(user, q, Rows(rs));
            && r.totalPages * r.pageSize >= r.total
            && (r.totalPages == 0 || (r.totalPages - 1) * r.pageSize < r.total)
  {
    var s := PageSizeOf(q);
    var n := |Filter(BuildWhere(q), rs)|;
    var t := CeilDiv(n, s);
    assert HandleHistory(user, q, Rows(rs)) == HistoryPage(SkipTake(Ordered(q, rs), SkipOf(q), s), n, PageOf(q), s, t);
    CeilingBounds(t, s, n);
  }

  lemma CeilingBounds(t: nat, s: nat, n: nat)
    requires s > 0 && t == CeilDiv(n, s)
    ensures t * s >= n && (t == 0 || (t - 1) * s < n)
  {
  }

  /** Without a prompt filter and without date bounds every record matches. */
  lemma EmptyFiltersMatchAll(q: HistoryQuery, r: Record)
    requires q.prompt == "" && q.from.None? && q.to.None?
    ensures Matches(BuildWhere(q), r)
  {
  }

  /** The prompt filter ignores ASCII case on both sides. */
  lemma PromptFilterIgnoresCase(q: HistoryQuery, r: Record)
    requires q.prompt != ""
    ensures Matches(BuildWhere(q), r) ==> Contains(Lower(r.prompt), Lower(q.prompt))
    ensures Matches(BuildWhere(q), r) == Matches(BuildWhere(q.(prompt := Lower(q.prompt))), r.(prompt := Lower(r.prompt)))
  {
    LowerIdempotent(q.prompt);
    LowerIdempotent(r.prompt);
  }

  /** The date bounds are inclusive on both ends. */
  lemma DateBoundsInclusive(q: HistoryQuery, r: Record)
    requires q.prompt == "" && q.from == Some(r.createdAt) && q.to == Some(r.createdAt)
    ensures Matches(BuildWhere(q), r)
  {
  }

  /** Multiplying by a natural number keeps the order. */
  lemma MulMonotone(a: nat, b: nat, s: nat)
    requires a <= b
    ensures a * s <= b * s
  {
    var d: nat := b - a;
    assert b * s == a * s + d * s;
  }

  /** The ordered matches are exactly as many as the matches. */
  lemma OrderedLength(q: HistoryQuery, rs: seq<Record>)
    ensures |Ordered(q, rs)| == |Filter(BuildWhere(q), rs)|
  {
    var f := Filter(BuildWhere(q), rs);
    assert |SortByCreatedDesc(f)| == |multiset(SortByCreatedDesc(f))| == |multiset(f)| == |f|;
  }

  /** Entry `k` of the `s`-sized slice starting at `d * s` is position `d * s + k`. */
  lemma SliceEntry(o: seq<Record>, s: nat, d: nat, k: nat)
    requires k < s && d * s + k < |o|
    ensures k < |SkipTake(o, d * s, s)| && SkipTake(o, d * s, s)[k] == o[d * s + k]
  {
  }

  /** Page `p` starts before the end exactly when `p` is at most `ceil(total / s)`. */
  lemma PageStartsBeforeEnd(p: nat, s: nat, total: nat)
    requires p >= 1 && s > 0
    ensures (p - 1) * s < total <==> p <= CeilDiv(total, s)
    ensures forall q: HistoryQuery :: ValidPaging(q) && PageOf(q) == p && PageSizeOf(q) == s ==>
              (SkipOf(q) < total <==> p <= CeilDiv(total, s))
  {
    var t := CeilDiv(total, s);
    if p <= t {
      MulMonotone(p - 1, t - 1, s);
    } else {
      MulMonotone(t, p - 1, s);
    }
  }

  /** Page `d + 1` skips `d` full pages. */
  lemma SkipOfPage(q: HistoryQuery, d: nat)
    requires ValidPaging(q)
    ensures ValidPaging(q.(page := Some(d + 1)))
    ensures SkipOf(q.(page := Some(d + 1))) == d * PageSizeOf(q)
  {
  }

  /** Every match appears on its page: with `pageSize` s, the match at index
      `d * s + k` of the ordered matches (`k < s`) is entry `k` of page `d + 1`. */
  lemma {:induction false} EveryMatchOnItsPage(user: Claims, q: HistoryQuery, rs: seq<Record>, d: nat, k: nat)
    requires ValidPaging(q)
    requires k < PageSizeOf(q) && d * PageSizeOf(q) + k < |Ordered(q, rs)|
    ensures ValidPaging(q.(page := Some(d + 1)))
    ensures var r := HandleHistory(user, q.(page := Some(d + 1)), Rows(rs));
            k < |r.data| && r.data[k] == Ordered(q, rs)[d * PageSizeOf(q) + k]
  {
    var q' := q.(page := Some(d + 1));
    var o, s := Ordered(q, rs), PageSizeOf(q);
    SkipOfPage(q, d);
    assert BuildWhere(q') == BuildWhere(q);
    assert Ordered(q', rs) == o && PageSizeOf(q') == s;
    DataIsSlice(user, q', rs);
    var data := HandleHistory(user, q', Rows(rs)).data;
    assert data == SkipTake(o, d * s, s);
    SliceEntry(o, s, d, k);
    assert data[k] == o[d * s + k];
  }

  /** `total` and `totalPages` of an answer. */
  lemma Counts(user: Claims, q: HistoryQuery, rs: seq<Record>)
    requires ValidPaging(q)
    ensures HandleHistory(user, q, Rows(rs)).total == |Ordered(q, rs)|
    ensures HandleHistory(user, q, Rows(rs)).totalPages == CeilDiv(|Ordered(q, rs)|, PageSizeOf(q))
  {
    OrderedLength(q, rs);
  }

  /** A page has rows exactly when it starts before the end of the ordered matches. */
  lemma DataNonEmptyIff(user: Claims, q: HistoryQuery, rs: seq<Record>)
    requires ValidPaging(q)
    ensures HandleHistory(user, q, Rows(rs)).data != [] <==> SkipOf(q) < |Ordered(q, rs)|
  {
    DataIsSlice(user, q, rs);
  }

  /** A page has rows exactly when its number is at most `totalPages`. */
  lemma {:induction false} PagesUpToTotalPagesNonEmpty(user: Claims, q: HistoryQuery, rs: seq<Record>)
    requires ValidPaging(q)
    ensures var r := HandleHistory(user, q, Rows(rs));
            r.data != [] <==> PageOf(q) <= r.totalPages
  {
    DataNonEmptyIff(user, q, rs);
    Counts(user, q, rs);
    PageStartsBeforeEnd(PageOf(q), PageSizeOf(q), |Ordered(q, rs)|);
  }

  /** The answer does not depend on who asks: every user sees the same history. */
  lemma HistoryIgnoresUser(u1: Claims, u2: Claims, q: HistoryQuery, table: Table)
    requires ValidPaging(q)
    ensures HandleHistory(u1, q, table) == HandleHistory(u2, q, table)
  {
  }

  /** `GET /api/image/history`: the handler behind `withAuth`. */
  function HistoryGet(req: Request<HistoryQuery>, jwtSecretEnv: Option<string>, verify: Verifier, table: Table): (g: Gated<HistoryResponse>)
    requires ValidPaging(req.body)
    ensures g.Denied? <==> VerifyToken(req.authorization, jwtSecretEnv, verify).AuthFailed?
    ensures g.Denied? ==> g.error == VerifyToken(req.authorization, jwtSecretEnv, verify).error
                          && g.status == VerifyToken(req.authorization, jwtSecretEnv, verify).status == 401
    ensures g.Passed? ==> g.response == HandleHistory(VerifyToken(req.authorization, jwtSecretEnv, verify).user, req.body, table)
  {
    match VerifyToken(req.authorization, jwtSecretEnv, verify)
    case AuthFailed(error, status) => Denied(error, status)
    case Authenticated(user) => Passed(HandleHistory(user, req.body, table))
  }
}

=== FILE: history_page.dfy ===
/** The client rules of the history page (src/app/history/page.tsx): the
    query parameters it sends, paging with the previous and next buttons, the
    page counter, the filter form, and how an answer updates the page. Every
    change of `page` makes the page fetch again; a step reports the parameter
    sets of the fetches it starts, and an answer is applied separately. */
module HistoryPage {
  import opened Js
  import HistoryApi

  const InitialPageSize := 6
  const FetchFailedError := "Erro ao buscar histórico"

  /** The page state the rules touch: the current page, the page size, the
      rows and total of the last answer, the three filter inputs as typed
      (the dates as `YYYY-MM-DD` text), and the error line. */
  datatype PageState = PageState(page: nat, pageSize: nat, data: seq<HistoryApi.Record>, total: nat,
                                 promptFilter: string, from: string, to: string, error: string)

  const Initial := PageState(1, InitialPageSize, [], 0, "", "", "", "")

  /** The fetch the `[page, pageSize]` effect starts when the page mounts,
      before any event: the initial state's parameters. */
  const MountFetches := [Params(Initial)]

  /** The mount fetch asks for page 1 of 6 records, with no filter. */
  lemma MountFetchAsksFirstPage()
    ensures |MountFetches| == 1
    ensures Lookup(MountFetches[0], "page") == Some("1")
    ensures Lookup(MountFetches[0], "pageSize") == Some("6")
    ensures forall k :: k != "page" && k != "pageSize" ==> Lookup(MountFetches[0], k).None?
  {
    assert NatToString(1) == "1";
    assert NatToString(6) == "6";
  }

  /** The parameters `fetchHistory()` sends: `page` and `pageSize`, then each
      filter input that is not empty. */
  function Params(s: PageState): (p: Object)
    ensures KeysDistinct(p)
    ensures Lookup(p, "page") == Some(NatToString(s.page))
    ensures Lookup(p, "pageSize") == Some(NatToString(s.pageSize))
    ensures Lookup(p, "prompt") == (if s.promptFilter != "" then Some(s.promptFilter) else None)
    ensures Lookup(p, "from") == (if s.from != "" then Some(s.from) else None)
    ensures Lookup(p, "to") == (if s.to != "" then Some(s.to) else None)
    ensures forall k :: k !in {"page", "pageSize", "prompt", "from", "to"} ==> Lookup(p, k).None?
  {
    var page, pageSize := NatToString(s.page), NatToString(s.pageSize);
    JoinedDistinct(page, pageSize, s.promptFilter, s.from, s.to);
    JoinedLookup(page, pageSize, s.promptFilter, s.from, s.to, "page");
    JoinedLookup(page, pageSize, s.promptFilter, s.from, s.to, "pageSize");
    JoinedLookup(page, pageSize, s.promptFilter, s.from, s.to, "prompt");
    JoinedLookup(page, pageSize, s.promptFilter, s.from, s.to, "from");
    JoinedLookup(page, pageSize, s.promptFilter, s.from, s.to, "to");
    forall k | k !in {"page", "pageSize", "prompt", "from", "to"}
      ensures Lookup(Joined(page, pageSize, s.promptFilter, s.from, s.to), k).None?
    {
      JoinedLookup(page, pageSize, s.promptFilter, s.from, s.to, k);
    }
    Joined(page, pageSize, s.promptFilter, s.from, s.to)
  }

  /** `page` and `pageSize`, then a property for each filter that is not empty. */
  function Joined(page: string, pageSize: string, prompt: string, from: string, to: string): Object {
    [("page", page), ("pageSize", pageSize)] + (Entry("prompt", prompt) + Entry("from", from) + Entry("to", to))
  }

  lemma JoinedDistinct(page: string, pageSize: string, prompt: string, from: string, to: string)
    ensures KeysDistinct(Joined(page, pageSize, prompt, from, to))
  {
    var a, b, c := Entry("prompt", prompt), Entry("from", from), Entry("to", to);
    ConcatDistinct(a, b);
    ConcatDistinct(a + b, c);
    ConcatDistinct([("page", page), ("pageSize", pageSize)], a + b + c);
  }

  /** What each key reads in the joined parameters. */
  lemma JoinedLookup(page: string, pageSize: string, prompt: string, from: string, to: string, k: string)
    ensures Lookup(Joined(page, pageSize, prompt, from, to), k)
            == if k == "page" then Some(page)
               else if k == "pageSize" then Some(pageSize)
               else if k == "prompt" then (if prompt != "" then Some(prompt) else None)
               else if k == "from" then (if from != "" then Some(from) else None)
               else if k == "to" then (if to != "" then Some(to) else None)
               else None
  {
    var base := [("page", page), ("pageSize", pageSize)];
    BaseLookups(page, pageSize);
    JoinedLookups(base, Entry("prompt", prompt), Entry("from", from), Entry("to", to), k);
  }

  /** The two paging properties every parameter set starts with. */
  lemma BaseLookups(page: string, pageSize: string)
    ensures var base := [("page", page), ("pageSize", pageSize)];
            && Lookup(base, "page") == Some(page)
            && Lookup(base, "pageSize") == Some(pageSize)
            && forall k :: k != "page" && k != "pageSize" ==> Lookup(base, k).None?
  {
    var base := [("page", page), ("pageSize", pageSize)];
    assert base[1..] == [("pageSize", pageSize)];
    forall k | k != "page" && k != "pageSize"
      ensures Lookup(base, k).None?
    {
      LookupSpec(base, k);
    }
  }

  /** Looking up in four objects joined: the first one holding the key wins. */
  lemma JoinedLookups(base: Object, a: Object, b: Object, c: Object, k: string)
    ensures Lookup(base + (a + b + c), k)
            == if Lookup(base, k).Some? then Lookup(base, k)
               else if Lookup(a, k).Some? then Lookup(a, k)
               else if Lookup(b, k).Some? then Lookup(b, k)
               else Lookup(c, k)
  {
    LookupConcat(base, a + b + c, k);
    LookupConcat(a + b, c, k);
    LookupConcat(a, b, k);
  }

  /** `...(value && { key: value })`: one property when the value is not empty, none otherwise. */
  function Entry(key: string, value: string): (o: Object)
    ensures KeysDistinct(o) && |o| <= 1 && forall i :: 0 <= i < |o| ==> o[i].0 == key
    ensures Lookup(o, key) == (if value != "" then Some(value) else None)
    ensures forall k :: k != key ==> Lookup(o, k).None?
  {
    var o := if value != "" then [(key, value)] else [];
    forall k
      ensures Lookup(o, k) == (if k == key && value != "" then Some(value) else None)
    {
      LookupSpec(o, k);
    }
    o
  }

  /** Two states with the same page size and filter inputs send the same
      parameters apart from `page`. */
  lemma ParamsDifferOnlyInPage(s: PageState, t: PageState)
    requires t.pageSize == s.pageSize && t.promptFilter == s.promptFilter && t.from == s.from && t.to == s.to
    ensures forall k :: k != "page" ==> Lookup(Params(s), k) == Lookup(Params(t), k)
  {
    forall k | k != "page"
      ensures Lookup(Params(s), k) == Lookup(Params(t), k)
    {
      if k !in {"page", "pageSize", "prompt", "from", "to"} {
      } else if k == "pageSize" {
      } else if k == "prompt" {
      } else if k == "from" {
      } else {
      }
    }
  }

  /** `fetchHistory(filters)`: the parameters of the current state with `filters` spread over them. */
  function ParamsWith(s: PageState, filters: Object): (p: Object)
    requires KeysDistinct(filters)
    ensures KeysDistinct(p)
    ensures forall k :: Lookup(p, k) == if Lookup(filters, k).Some? then Lookup(filters, k) else Lookup(Params(s), k)
  {
    Spread(Params(s), filters)
  }

  /** The "Anterior" button is disabled on the first page. */
  predicate PrevDisabled(s: PageState) {
    s.page == 1
  }

  /** The "Próxima" button is disabled once this page reaches the total. */
  predicate NextDisabled(s: PageState) {
    s.page * s.pageSize >= s.total
  }

  /** "Página {page} de {max(1, ceil(total / pageSize))}". */
  function PageCount(s: PageState): (n: nat)
    requires s.pageSize > 0
    ensures n >= 1
    ensures n * s.pageSize >= s.total
    ensures n == 1 || (n - 1) * s.pageSize < s.total
  {
    Max(1, CeilDiv(s.total, s.pageSize))
  }

  datatype Event =
    | Prev
    | Next
    | EditPrompt(text: string)
    | EditFrom(text: string)
    | EditTo(text: string)
    | Filter

  /** The state after an event and the parameter sets of the fetches it starts. */
  datatype Stepped = Stepped(state: PageState, fetches: seq<Object>)

  /** One user event. A disabled button does nothing; a change of `page` fetches
      the new page with the filter inputs as they stand. Submitting the filter
      form goes to page 1 and fetches with `page` forced to 1; when the page
      was not already 1, the change of page fetches a second time. Every fetch
      clears the error line as it starts. */
  function Step(s: PageState, e: Event): (r: Stepped)
    ensures e.Prev? && s.page > 1 ==> r.state.page == s.page - 1
    ensures e.Next? && !NextDisabled(s) ==> r.state.page == s.page + 1
    ensures e.Filter? ==> r.state.page == 1
    ensures e.Prev? || e.Next? || e.Filter? ==> r.state.(page := s.page, error := s.error) == s
    ensures r.fetches != [] ==> r.state.error == ""
    ensures r.fetches == [] ==> r.state.error == s.error
    ensures (e.Prev? && PrevDisabled(s)) || (e.Next? && NextDisabled(s)) ==> r == Stepped(s, [])
    ensures e.EditPrompt? || e.EditFrom? || e.EditTo? ==> r.fetches == [] && r.state.page == s.page
    ensures e.EditPrompt? ==> r.state == s.(promptFilter := e.text)
    ensures e.EditFrom? ==> r.state == s.(from := e.text)
    ensures e.EditTo? ==> r.state == s.(to := e.text)
    ensures e.Filter? ==> |r.fetches| == (if s.page == 1 then 1 else 2)
    ensures e.Prev? || e.Next? ==> r.fetches == (if r.state.page != s.page then [Params(r.state)] else [])
    ensures e.Filter? ==> r.fetches[0] == ParamsWith(s, [("page", "1")])
                          && (s.page != 1 ==> r.fetches[1] == Params(r.state))
  {
    match e
    case Prev =>
      if PrevDisabled(s) then Stepped(s, [])
      else
        var t := s.(page := Max(1, s.page - 1), error := "");
        Stepped(t, [Params(t)])
    case Next =>
      if NextDisabled(s) then Stepped(s, [])
      else
        var t := s.(page := s.page + 1, error := "");
        Stepped(t, [Params(t)])
    case EditPrompt(text) => Stepped(s.(promptFilter := text), [])
    case EditFrom(text) => Stepped(s.(from := text), [])
    case EditTo(text) => Stepped(s.(to := text), [])
    case Filter =>
      var t := s.(page := 1, error := "");
      var forced := ParamsWith(s, [("page", "1")]);
      if s.page == 1 then Stepped(t, [forced]) else Stepped(t, [forced, Params(t)])
  }

  /** What the page can be in: a page number of at least 1 and the fixed page size. */
  predicate Invariant(s: PageState) {
    s.page >= 1 && s.pageSize == InitialPageSize
  }

  lemma StepKeepsInvariant(s: PageState, e: Event)
    requires Invariant(s)
    ensures Invariant(Step(s, e).state)
  {
  }

  /** How an answer turns out: `fetch` or `res.json()` throws, or the answer
      arrives with its `ok` flag, its `error` field and, when ok, rows and total. */
  datatype HistoryReply =
    | FetchThrows(message: string)
    | Replied(ok: bool, error: Option<string>, data: seq<HistoryApi.Record>, total: nat)

  /** Applying an answer: rows and total on success, leaving the error line as
      it is (the fetch cleared it when it started); otherwise the error line
      shows the answer's error, or "Erro ao buscar histórico", and the rows of
      the previous answer stay. */
  function Receive(s: PageState, reply: HistoryReply): (r: PageState)
    ensures reply.Replied? && reply.ok ==> r == s.(data := reply.data, total := reply.total)
    ensures !(reply.Replied? && reply.ok) ==> r.data == s.data && r.total == s.total
    ensures reply.Replied? && !reply.ok ==>
              r.error == (if Present(reply.error) then reply.error.value else FetchFailedError)
    ensures reply.FetchThrows? ==> r.error == reply.message
    ensures r.page == s.page && r.pageSize == s.pageSize
  {
    match reply
    case FetchThrows(message) => s.(error := message)
    case Replied(ok, error, data, total) =>
      if !ok then s.(error := OrElse(error, FetchFailedError))
      else s.(data := data, total := total)
  }

  lemma ReceiveKeepsInvariant(s: PageState, reply: HistoryReply)
    requires Invariant(s)
    ensures Invariant(Receive(s, reply))
  {
  }

  /** Everything the page does: a user event, or the arrival of an answer. */
  datatype Happening = UserEvent(event: Event) | Answer(reply: HistoryReply)

  function Run(s: PageState, hs: seq<Happening>): PageState
    decreases |hs|
  {
    if hs == [] then s
    else
      match hs[0]
      case UserEvent(e) => Run(Step(s, e).state, hs[1..])
      case Answer(reply) => Run(Receive(s, reply), hs[1..])
  }

  /** The filter form, submitted away from page 1, starts two fetches. When the
      first answer is a failure and the second a success, the page shows the
      new rows under the failure's message: only the start of a fetch clears
      the error line, and both fetches started before either answer came. */
  lemma FailureOutlivesLaterSuccess(s: PageState, message: string, data: seq<HistoryApi.Record>, total: nat)
    requires s.page != 1 && message != ""
    ensures var t := Run(s, [UserEvent(Filter), Answer(Replied(false, Some(message), [], 0)),
                             Answer(Replied(true, None, data, total))]);
            && t.error == message
            && t.data == data && t.total == total
            && t.page == 1
  {
    var hs := [UserEvent(Filter), Answer(Replied(false, Some(message), [], 0)), Answer(Replied(true, None, data, total))];
    var t0 := Step(s, Filter).state;
    var t1 := Receive(t0, hs[1].reply);
    assert Run(s, hs) == Run(t0, hs[1..]);
    assert Run(t0, hs[1..]) == Run(t1, hs[2..]);
    assert t1.error == message;
    assert Run(t1, hs[2..]) == Run(Receive(t1, hs[2].reply), []);
  }

  /** Every state reached from the initial one has a page of at least 1 and a page size of 6. */
  lemma {:induction false} RunKeepsInvariant(s: PageState, hs: seq<Happening>)
    requires Invariant(s)
    ensures Invariant(Run(s, hs))
    decreases |hs|
  {
    if hs != [] {
      match hs[0]
      case UserEvent(e) =>
        StepKeepsInvariant(s, e);
        RunKeepsInvariant(Step(s, e).state, hs[1..]);
      case Answer(reply) =>
        ReceiveKeepsInvariant(s, reply);
        RunKeepsInvariant(Receive(s, reply), hs[1..]);
    }
  }

  lemma ReachableStatesKeepInvariant(hs: seq<Happening>)
    ensures Invariant(Run(Initial, hs))
  {
    RunKeepsInvariant(Initial, hs);
  }

  /** Two parameter sets that read the same for every key. */
  ghost predicate SameParams(a: Object, b: Object) {
    forall k :: Lookup(a, k) == Lookup(b, k)
  }

  /** The filter form's first fetch, with `page` forced to 1, asks for the same
      parameters as the first page of the state it leads to. */
  lemma FilterFetchIsFirstPage(s: PageState)
    ensures SameParams(ParamsWith(s, [("page", "1")]), Params(s.(page := 1)))
  {
    var forced: Object := [("page", "1")];
    assert NatToString(1) == "1";
    ParamsDifferOnlyInPage(s, s.(page := 1));
    forall k
      ensures Lookup(ParamsWith(s, forced), k) == Lookup(Params(s.(page := 1)), k)
    {
      if k != "page" {
        assert Lookup(forced, k).None?;
      }
    }
  }

  /** Every fetch a step starts asks for what the state after the step shows. */
  lemma {:induction false} FetchesMatchNewState(s: PageState, e: Event)
    ensures var r := Step(s, e);
            forall j :: 0 <= j < |r.fetches| ==> SameParams(r.fetches[j], Params(r.state))
  {
    match e
    case Filter => FilterFetchesMatch(s);
    case Prev =>
    case Next =>
    case EditPrompt(_) =>
    case EditFrom(_) =>
    case EditTo(_) =>
  }

  lemma FilterFetchesMatch(s: PageState)
    ensures var r := Step(s, Filter);
            forall j :: 0 <= j < |r.fetches| ==> SameParams(r.fetches[j], Params(r.state))
  {
    var t := s.(page := 1, error := "");
    var r := Step(s, Filter);
    assert r.state == t;
    ParamsDifferOnlyInPage(s.(page := 1), t);
    assert Params(s.(page := 1)) == Params(t);
    forall j | 0 <= j < |r.fetches|
      ensures SameParams(r.fetches[j], Params(t))
    {
      if j == 0 {
        FilterFetchIsFirstPage(s);
      }
    }
  }

  /** Paging sends the filter inputs as currently typed, whether or not the
      filter form was submitted. */
  lemma PagingSendsTypedFilters(s: PageState, text: string)
    requires Invariant(s) && s.page * s.pageSize < s.total
    ensures var t := Step(Step(s, EditPrompt(text)).state, Next);
            |t.fetches| == 1 && Lookup(t.fetches[0], "prompt") == (if text != "" then Some(text) else None)
  {
  }

  /** The next button is enabled exactly on pages before the last one the counter shows. */
  lemma {:induction false} NextEnabledIffBeforeLastPage(s: PageState)
    requires Invariant(s)
    ensures !NextDisabled(s) <==> s.page < PageCount(s)
  {
    HistoryApi.PageStartsBeforeEnd(s.page + 1, s.pageSize, s.total);
  }
}

=== FILE: js.dfy ===
/** The JavaScript and web-platform built-ins the application relies on:
    optional values, string truthiness, `String.prototype.trim`, ASCII case
    folding, substring search, `FormData.get`, object spread with override,
    and the integer arithmetic behind `Math.ceil` and `Math.max`. */
module Js {

  /** `undefined` / `null` versus a present value. */
  datatype Option<+T> = None | Some(value: T)

  /** One octet of a `Buffer`. */
  newtype byte = x: int | 0 <= x < 256

  /** JavaScript truthiness of an optional string: `undefined`, `null` and `""` are falsy. */
  predicate Present(o: Option<string>) {
    o.Some? && o.value != ""
  }

  /** `a || b` on optional strings. */
  function OrElse(o: Option<string>, default: string): (r: string)
    ensures Present(o) ==> r == o.value
    ensures !Present(o) ==> r == default
  {
    if Present(o) then o.value else default
  }

  function Max(a: int, b: int): (r: int)
    ensures r >= a && r >= b
    ensures r == a || r == b
  {
    if a >= b then a else b
  }

  function Min(a: int, b: int): (r: int)
    ensures r <= a && r <= b
    ensures r == a || r == b
  {
    if a <= b then a else b
  }

  // ---------------------------------------------------------------------------
  // Whitespace and trim

  /** The code points `String.prototype.trim` removes: the ECMAScript WhiteSpace
      and LineTerminator characters (tab, line feed, vertical tab, form feed,
      carriage return, space, no-break space, the Unicode space separators,
      line and paragraph separator, and the byte order mark). */
  const WhitespaceCodes: set<int> :=
    {0x09, 0x0A, 0x0B, 0x0C, 0x0D, 0x20, 0xA0, 0x1680,
     0x2000, 0x2001, 0x2002, 0x2003, 0x2004, 0x2005, 0x2006, 0x2007, 0x2008, 0x2009, 0x200A,
     0x2028, 0x2029, 0x202F, 0x205F, 0x3000, 0xFEFF}

  predicate IsWhitespace(c: char) {
    c as int in WhitespaceCodes
  }

  predicate AllWhitespace(s: string) {
    forall k :: 0 <= k < |s| ==> IsWhitespace(s[k])
  }

  /** Leading whitespace removed: the longest suffix of `s` not starting with whitespace. */
  function TrimStart(s: string): (r: string)
    ensures |r| <= |s| && r == s[|s| - |r|..]
    ensures forall k :: 0 <= k < |s| - |r| ==> IsWhitespace(s[k])
    ensures r == [] || !IsWhitespace(r[0])
  {
    if |s| > 0 && IsWhitespace(s[0]) then
      var r := TrimStart(s[1..]);
      assert forall k :: 1 <= k < |s| ==> s[k] == s[1..][k - 1];
      r
    else
      s
  }

  /** Trailing whitespace removed: the longest prefix of `s` not ending with whitespace. */
  function TrimEnd(s: string): (r: string)
    ensures |r| <= |s| && r == s[..|r|]
    ensures forall k :: |r| <= k < |s| ==> IsWhitespace(s[k])
    ensures r == [] || !IsWhitespace(r[|r| - 1])
  {
    if |s| > 0 && IsWhitespace(s[|s| - 1]) then
      var r := TrimEnd(s[..|s| - 1]);
      assert forall k :: 0 <= k < |s| - 1 ==> s[k] == s[..|s| - 1][k];
      r
    else
      s
  }

  /** `s.trim()`. */
  function Trim(s: string): string {
    TrimEnd(TrimStart(s))
  }

  /** The trimmed string is the middle of `s`, with only whitespace cut away on
      either side, and it neither begins nor ends with whitespace. */
  lemma TrimIsCore(s: string)
    ensures exists i, j :: 0 <= i <= j <= |s| && Trim(s) == s[i..j]
                          && AllWhitespace(s[..i]) && AllWhitespace(s[j..])
    ensures Trim(s) == [] || (!IsWhitespace(Trim(s)[0]) && !IsWhitespace(Trim(s)[|Trim(s)| - 1]))
  {
    var i, j := TrimCut(s);
    var b := Trim(s);
    if b != [] {
      assert b[0] == TrimStart(s)[0];
    }
  }

  /** Where `Trim` cuts `s`. */
  lemma TrimCut(s: string) returns (i: nat, j: nat)
    ensures i <= j <= |s| && Trim(s) == s[i..j]
    ensures AllWhitespace(s[..i]) && AllWhitespace(s[j..])
  {
    var a := TrimStart(s);
    i := |s| - |a|;
    var b := TrimEnd(a);
    j := i + |b|;
    forall k | 0 <= k < |b|
      ensures b[k] == s[i..j][k]
    {
      assert b[k] == a[k] == s[i + k];
    }
    WhitespacePrefix(s, i);
    WhitespaceSuffix(s, a, b, i);
  }

  lemma WhitespacePrefix(s: string, i: nat)
    requires i <= |s| && forall k :: 0 <= k < i ==> IsWhitespace(s[k])
    ensures AllWhitespace(s[..i])
  {
    forall k | 0 <= k < i
      ensures IsWhitespace(s[..i][k])
    {
      assert s[..i][k] == s[k];
    }
  }

  lemma WhitespaceSuffix(s: string, a: string, b: string, i: nat)
    requires i + |a| == |s| && a == s[i..] && |b| <= |a|
    requires forall k :: |b| <= k < |a| ==> IsWhitespace(a[k])
    ensures AllWhitespace(s[i + |b|..])
  {
    var j := i + |b|;
    forall k | 0 <= k < |s| - j
      ensures IsWhitespace(s[j..][k])
    {
      assert s[j..][k] == a[|b| + k];
    }
  }

  /** A string is trimmed to nothing exactly when it is all whitespace. */
  lemma {:induction false} TrimEmptyIffAllWhitespace(s: string)
    ensures Trim(s) == [] <==> AllWhitespace(s)
  {
    var a := TrimStart(s);
    if a == [] {
      assert s[..|s|] == s;
    } else {
      assert !IsWhitespace(a[0]);
      assert TrimEnd(a) == [] || TrimEnd(a)[0] == a[0];
      assert s[|s| - |a|] == a[0];
    }
  }

  /** Trimming twice is trimming once. */
  lemma TrimIdempotent(s: string)
    ensures Trim(Trim(s)) == Trim(s)
  {
    var t := Trim(s);
    if t != [] {
      assert TrimStart(t) == t;
      assert TrimEnd(t) == t;
    }
  }

  // ---------------------------------------------------------------------------
  // Character classes and case folding

  predicate IsAsciiAlnum(c: char) {
    ('a' <= c <= 'z') || ('A' <= c <= 'Z') || ('0' <= c <= '9')
  }

  function LowerChar(c: char): (r: char)
    ensures 'A' <= c <= 'Z' ==> 'a' <= r <= 'z'
    ensures !('A' <= c <= 'Z') ==> r == c
  {
    if 'A' <= c <= 'Z' then (c as int + 32) as char else c
  }

  /** Case folding over the ASCII letters. */
  function Lower(s: string): (r: string)
    ensures |r| == |s|
    ensures forall k :: 0 <= k < |s| ==> r[k] == LowerChar(s[k])
  {
    if s == [] then [] else [LowerChar(s[0])] + Lower(s[1..])
  }

  lemma LowerIdempotent(s: string)
    ensures Lower(Lower(s)) == Lower(s)
  {
  }

  // ---------------------------------------------------------------------------
  // Substring search and prefixes

  /** `h.startsWith(p)`. */
  predicate StartsWith(h: string, p: string) {
    |p| <= |h| && h[..|p|] == p
  }

  /** `n` occurs in `h` starting at offset `i`. */
  predicate OccursAt(h: string, n: string, i: nat) {
    i + |n| <= |h| && h[i..i + |n|] == n
  }

  /** `h.includes(n)`: `n` occurs at some offset of `h`. */
  predicate Contains(h: string, n: string) {
    exists i: nat | i <= |h| :: OccursAt(h, n, i)
  }

  /** `s.substring(start)` for a non-negative start: indices past the end clamp to the end. */
  function SubstringFrom(s: string, start: nat): (r: string)
    ensures start <= |s| ==> s == s[..start] + r
    ensures start > |s| ==> r == ""
  {
    if start <= |s| then s[start..] else ""
  }

  // ---------------------------------------------------------------------------
  // Numbers

  /** `Math.ceil(a / b)` for a non-negative `a` and a positive `b`: the number
      of `b`-sized parts `a` needs, counted one part at a time. */
  function CeilDiv(a: nat, b: nat): (r: nat)
    requires b > 0
    ensures r * b >= a
    ensures r == 0 || (r - 1) * b < a
    ensures a == 0 <==> r == 0
    decreases a
  {
    if a == 0 then 0
    else if a <= b then 1
    else
      var r' := CeilDiv(a - b, b);
      assert (r' + 1) * b == r' * b + b;
      r' + 1
  }

  function DigitChar(d: nat): (c: char)
    requires d < 10
    ensures '0' <= c <= '9'
  {
    ['0', '1', '2', '3', '4', '5', '6', '7', '8', '9'][d]
  }

  /** `String(n)` for a natural number: its decimal digits, without leading zeros. */
  function NatToString(n: nat): (r: string)
    ensures |r| >= 1
    ensures forall k :: 0 <= k < |r| ==> IsDigit(r[k])
    decreases n
  {
    if n < 10 then [DigitChar(n)] else NatToString(n / 10) + [DigitChar(n % 10)]
  }

  predicate IsDigit(c: char) {
    '0' <= c <= '9'
  }

  function DigitValue(c: char): (d: nat)
    requires IsDigit(c)
    ensures d < 10 && DigitChar(d) == c
  {
    (c as int) - ('0' as int)
  }

  /** The number a non-empty string of decimal digits denotes. */
  function DigitsValue(s: string): (n: nat)
    requires |s| >= 1 && forall k :: 0 <= k < |s| ==> IsDigit(s[k])
    decreases |s|
  {
    if |s| == 1 then DigitValue(s[0])
    else DigitsValue(s[..|s| - 1]) * 10 + DigitValue(s[|s| - 1])
  }

  /** `parseInt(s)` on strings made only of decimal digits; any other string
      (the ones `parseInt` reads as `NaN`, a sign, or a partial number) is `None`. */
  function ParseDigits(s: string): (r: Option<nat>)
    ensures r.Some? <==> |s| >= 1 && forall k :: 0 <= k < |s| ==> IsDigit(s[k])
  {
    if |s| >= 1 && forall k :: 0 <= k < |s| ==> IsDigit(s[k]) then Some(DigitsValue(s)) else None
  }

  /** `parseInt(String(n)) == n`: reading back the decimal form of a natural number. */
  lemma {:induction false} ParseNatToString(n: nat)
    ensures ParseDigits(NatToString(n)) == Some(n)
    decreases n
  {
    var s := NatToString(n);
    if n >= 10 {
      var m, d := n / 10, n % 10;
      assert n == m * 10 + d;
      ParseNatToString(m);
      var p := NatToString(m);
      assert s == p + [DigitChar(d)];
      assert s[..|s| - 1] == p;
      assert DigitValue(s[|s| - 1]) == d;
      assert DigitsValue(s) == DigitsValue(p) * 10 + d;
    }
  }

  // ---------------------------------------------------------------------------
  // FormData

  datatype File = File(name: string, bytes: seq<byte>)

  /** A `FormData` entry holds text or a file. */
  datatype FormValue = TextValue(text: string) | FileValue(file: File)

  type FormData = seq<(string, FormValue)>

  /** `formData.get(key)`: the value of the first entry with that key. */
  function FormGet(entries: FormData, key: string): (r: Option<FormValue>)
    ensures r.None? <==> forall k :: 0 <= k < |entries| ==> entries[k].0 != key
    ensures r.Some? ==> exists k :: 0 <= k < |entries| && entries[k] == (key, r.value)
                                    && forall m :: 0 <= m < k ==> entries[m].0 != key
  {
    if entries == [] then None
    else if entries[0].0 == key then Some(entries[0].1)
    else
      var r := FormGet(entries[1..], key);
      assert forall k :: 1 <= k < |entries| ==> entries[k] == entries[1..][k - 1];
      r
  }

  /** Line breaks as the HTML Standard's `multipart/form-data` encoding
      algorithm writes them: a CR LF pair stays, and every other CR or LF
      becomes CR LF. */
  function NormalizeNewlines(s: string): (r: string)
    ensures |r| >= |s|
    ensures s != [] ==> r != []
  {
    if s == [] then []
    else if s[0] == '\r' && |s| > 1 && s[1] == '\n' then "\r\n" + NormalizeNewlines(s[2..])
    else if s[0] == '\r' || s[0] == '\n' then "\r\n" + NormalizeNewlines(s[1..])
    else [s[0]] + NormalizeNewlines(s[1..])
  }

  predicate NoLineBreaks(s: string) {
    '\r' !in s && '\n' !in s
  }

  /** Text without line breaks goes through the encoding unchanged, and text
      that comes out without line breaks went in without them. */
  lemma {:induction false} NormalizeNewlinesFixesPlainText(s: string)
    ensures NoLineBreaks(s) ==> NormalizeNewlines(s) == s
    ensures NoLineBreaks(NormalizeNewlines(s)) ==> NoLineBreaks(s)
    decreases |s|
  {
    if s != [] {
      var r := NormalizeNewlines(s);
      if s[0] == '\r' || s[0] == '\n' {
        assert r[0] == '\r';
      } else {
        var t := s[1..];
        assert s == [s[0]] + t;
        NormalizeNewlinesFixesPlainText(t);
        assert r == [s[0]] + NormalizeNewlines(t);
        assert NoLineBreaks(r) ==> NoLineBreaks(NormalizeNewlines(t));
      }
    }
  }

  /** Encoding twice is encoding once: what the encoding writes is already in
      its normal form. */
  lemma {:induction false} NormalizeNewlinesIdempotent(s: string)
    ensures NormalizeNewlines(NormalizeNewlines(s)) == NormalizeNewlines(s)
    decreases |s|
  {
    if s != [] {
      var r := NormalizeNewlines(s);
      if s[0] == '\r' && |s| > 1 && s[1] == '\n' {
        NormalizeNewlinesIdempotent(s[2..]);
        CrLfHead(NormalizeNewlines(s[2..]));
      } else if s[0] == '\r' || s[0] == '\n' {
        NormalizeNewlinesIdempotent(s[1..]);
        CrLfHead(NormalizeNewlines(s[1..]));
      } else {
        NormalizeNewlinesIdempotent(s[1..]);
        var u := [s[0]] + NormalizeNewlines(s[1..]);
        assert u[1..] == NormalizeNewlines(s[1..]);
      }
    }
  }

  /** The encoding keeps a leading CR LF pair and goes on after it. */
  lemma CrLfHead(t: string)
    ensures NormalizeNewlines("\r\n" + t) == "\r\n" + NormalizeNewlines(t)
  {
    assert ("\r\n" + t)[2..] == t;
  }

  /** A `multipart/form-data` field value as the receiving side reads it back:
      text with its line breaks normalised, a file as sent. */
  function EncodeValue(v: FormValue): (r: FormValue)
    ensures r.TextValue? <==> v.TextValue?
    ensures v.FileValue? ==> r == v
  {
    match v
    case TextValue(t) => TextValue(NormalizeNewlines(t))
    case FileValue(_) => v
  }

  /** `FormData` sent as a `fetch` body and read back with `request.formData()`:
      the same entries in the same order, names and text values with their
      line breaks normalised. */
  function MultipartRoundTrip(entries: FormData): (r: FormData)
    ensures |r| == |entries|
  {
    if entries == [] then []
    else [(NormalizeNewlines(entries[0].0), EncodeValue(entries[0].1))] + MultipartRoundTrip(entries[1..])
  }

  /** A key without line breaks finds, after the round trip, the encoding of
      the value it found before. */
  lemma {:induction false} FormGetAfterRoundTrip(entries: FormData, key: string)
    requires NoLineBreaks(key)
    ensures FormGet(MultipartRoundTrip(entries), key)
            == (if FormGet(entries, key).None? then None else Some(EncodeValue(FormGet(entries, key).value)))
    decreases |entries|
  {
    if entries != [] {
      var r := MultipartRoundTrip(entries);
      assert r[1..] == MultipartRoundTrip(entries[1..]);
      NormalizeNewlinesFixesPlainText(entries[0].0);
      FormGetAfterRoundTrip(entries[1..], key);
    }
  }

  // ---------------------------------------------------------------------------
  // Plain objects with string values, as `{ ...a, ...b }` builds them

  /** An object's own properties in insertion order. */
  type Object = seq<(string, string)>

  predicate KeysDistinct(o: Object) {
    forall i, j :: 0 <= i < j < |o| ==> o[i].0 != o[j].0
  }

  function Lookup(o: Object, key: string): (r: Option<string>)
  {
    if o == [] then None
    else if o[0].0 == key then Some(o[0].1)
    else Lookup(o[1..], key)
  }

  /** What `Lookup` finds: nothing exactly when no property has the key, and
      otherwise the value of a property with that key. */
  lemma {:induction false} LookupSpec(o: Object, key: string)
    ensures Lookup(o, key).None? <==> forall k :: 0 <= k < |o| ==> o[k].0 != key
    ensures Lookup(o, key).Some? ==> exists k :: 0 <= k < |o| && o[k] == (key, Lookup(o, key).value)
  {
    if o != [] && o[0].0 != key {
      LookupSpec(o[1..], key);
      assert forall k :: 1 <= k < |o| ==> o[k] == o[1..][k - 1];
      if Lookup(o, key).Some? {
        var k :| 0 <= k < |o| - 1 && o[1..][k] == (key, Lookup(o, key).value);
        assert o[k + 1] == o[1..][k];
      }
    }
  }

  /** In an object with distinct keys, the value found for a key is the one at its position. */
  lemma {:induction false} LookupAt(o: Object, i: nat)
    requires KeysDistinct(o) && i < |o|
    ensures Lookup(o, o[i].0) == Some(o[i].1)
  {
    if i > 0 {
      assert o[1..][i - 1] == o[i];
      LookupAt(o[1..], i - 1);
    }
  }

  /** Lookup in an object with distinct keys: present exactly at the key's position. */
  lemma LookupDistinct(o: Object, k: string)
    requires KeysDistinct(o)
    ensures Lookup(o, k).Some? ==> exists i :: 0 <= i < |o| && o[i].0 == k && Lookup(o, k) == Some(o[i].1)
  {
    LookupSpec(o, k);
    if Lookup(o, k).Some? {
      var i :| 0 <= i < |o| && o[i] == (k, Lookup(o, k).value);
      LookupAt(o, i);
    }
  }

  /** Looking a key up in two objects joined: the first one's property wins. */
  lemma {:induction false} LookupConcat(a: Object, b: Object, key: string)
    ensures Lookup(a + b, key) == if Lookup(a, key).Some? then Lookup(a, key) else Lookup(b, key)
  {
    if a != [] {
      assert (a + b)[0] == a[0];
      assert (a + b)[1..] == a[1..] + b;
      LookupConcat(a[1..], b, key);
    } else {
      assert a + b == b;
    }
  }

  /** Joining two objects with no key in common keeps the keys distinct. */
  lemma ConcatDistinct(a: Object, b: Object)
    requires KeysDistinct(a) && KeysDistinct(b)
    requires forall i, j :: 0 <= i < |a| && 0 <= j < |b| ==> a[i].0 != b[j].0
    ensures KeysDistinct(a + b)
  {
  }

  /** Assigning a property: an existing key keeps its position and takes the new
      value, a new key is appended. */
  function Assign(o: Object, key: string, value: string): (r: Object)
    requires KeysDistinct(o)
    ensures KeysDistinct(r)
    ensures Lookup(r, key) == Some(value)
    ensures forall k :: k != key ==> Lookup(r, k) == Lookup(o, k)
    ensures Lookup(o, key).Some? ==> |r| == |o| && forall i :: 0 <= i < |o| ==> r[i].0 == o[i].0
    ensures Lookup(o, key).None? ==> r == o + [(key, value)]
  {
    var r := if Lookup(o, key).Some? then
               seq(|o|, i requires 0 <= i < |o| => if o[i].0 == key then (key, value) else o[i])
             else o + [(key, value)];
    LookupSpec(o, key);
    assert KeysDistinct(r);
    AssignLookups(o, key, value, r);
    r
  }

  lemma AssignLookups(o: Object, key: string, value: string, r: Object)
    requires KeysDistinct(o) && KeysDistinct(r)
    requires |r| == |o| || (|r| == |o| + 1 && r[|o|] == (key, value) && Lookup(o, key).None?)
    requires forall i :: 0 <= i < |o| ==> r[i] == (if o[i].0 == key then (key, value) else o[i])
    requires Lookup(o, key).Some? || |r| == |o| + 1
    ensures Lookup(r, key) == Some(value)
    ensures forall k :: k != key ==> Lookup(r, k) == Lookup(o, k)
  {
    if |r| == |o| + 1 {
      LookupAt(r, |o|);
    } else {
      LookupDistinct(o, key);
      var i :| 0 <= i < |o| && o[i].0 == key;
      LookupAt(r, i);
    }
    forall k | k != key
      ensures Lookup(r, k) == Lookup(o, k)
    {
      AssignKeepsOther(o, key, value, r, k);
    }
  }

  lemma AssignKeepsOther(o: Object, key: string, value: string, r: Object, k: string)
    requires KeysDistinct(o) && KeysDistinct(r)
    requires |r| == |o| || (|r| == |o| + 1 && r[|o|] == (key, value))
    requires forall i :: 0 <= i < |o| ==> r[i] == (if o[i].0 == key then (key, value) else o[i])
    requires k != key
    ensures Lookup(r, k) == Lookup(o, k)
  {
    LookupDistinct(o, k);
    if Lookup(o, k).Some? {
      var i :| 0 <= i < |o| && o[i].0 == k && Lookup(o, k) == Some(o[i].1);
      assert r[i] == o[i];
      LookupAt(r, i);
    } else {
      LookupSpec(o, k);
      forall j | 0 <= j < |r|
        ensures r[j].0 != k
      {
        if j < |o| {
          assert r[j] == (if o[j].0 == key then (key, value) else o[j]);
        }
      }
      LookupSpec(r, k);
    }
  }

  /** `{ ...o, ...overrides }`: each override is assigned in turn. */
  function Spread(o: Object, overrides: Object): (r: Object)
    requires KeysDistinct(o) && KeysDistinct(overrides)
    ensures KeysDistinct(r)
    ensures forall k :: Lookup(r, k) == (if Lookup(overrides, k).Some? then Lookup(overrides, k) else Lookup(o, k))
    decreases |overrides|
  {
    if overrides == [] then o
    else
      var first := overrides[0];
      var rest := overrides[1..];
      assert forall i :: 0 <= i < |rest| ==> rest[i].0 != first.0;
      LookupSpec(rest, first.0);
      Spread(Assign(o, first.0, first.1), rest)
  }
}

=== FILE: login.dfy ===
/** The login route (src/app/api/auth/login/route.ts): check the posted
    credentials against a fixed table of accounts and, on a match, issue a
    24-hour JWT carrying the account's username and display name. JWT signing
    is an oracle `sign(claims, secret, expiresIn)`. */
module Login {
  import opened Js
  import opened Auth

  datatype Account = Account(username: string, password: string, name: string)

  /** The fixed accounts of the system, in table order. */
  const Users: seq<Account> := [
    Account("admin", "123", "Administrador"),
    Account("rodrigo", "gamechangeapp1", "Rodrigo"),
    Account("weslley", "gamechangeapp", "Weslley"),
    Account("user1", "123", "Usuário 1"),
    Account("user2", "123", "Usuário 2"),
    Account("user3", "123", "Usuário 3")
  ]

  const TokenLifetime := "24h"
  const MissingFieldsError := "Usuário e senha são obrigatórios"
  const BadCredentialsError := "Usuário ou senha inválidos"
  const InternalError := "Erro interno do servidor"

  /** `jwt.sign(claims, secret, { expiresIn })`. */
  type Signer = (Claims, string, string) -> string

  /** The parsed JSON body: unparseable, or the two fields (absent or a string). */
  datatype LoginBody = MalformedJson | Credentials(username: Option<string>, password: Option<string>)

  datatype LoginResponse =
    | LoginFailed(error: string, status: int)
    | LoggedIn(token: string, name: string, username: string)

  predicate Matches(a: Account, username: string, password: string) {
    a.username == username && a.password == password
  }

  predicate UsernamesDistinct(users: seq<Account>) {
    forall i, j :: 0 <= i < j < |users| ==> users[i].username != users[j].username
  }

  /** `users.find(u => u.username === username && u.password === password)`:
      the first matching entry. */
  function FindUser(users: seq<Account>, username: string, password: string): (r: Option<Account>)
    ensures r.None? <==> forall k :: 0 <= k < |users| ==> !Matches(users[k], username, password)
    ensures r.Some? ==> exists k :: 0 <= k < |users| && users[k] == r.value
                                    && Matches(r.value, username, password)
                                    && forall m :: 0 <= m < k ==> !Matches(users[m], username, password)
  {
    if users == [] then None
    else if Matches(users[0], username, password) then Some(users[0])
    else
      var r := FindUser(users[1..], username, password);
      assert forall k :: 1 <= k < |users| ==> users[k] == users[1..][k - 1];
      r
  }

  /** No two accounts of the table share a username. */
  lemma UsersDistinct()
    ensures UsernamesDistinct(Users)
  {
  }

  /** With distinct usernames, at most one entry matches, so the entry found is
      the only one that could have been: any matching entry is it. */
  lemma MatchIsUnique(users: seq<Account>, username: string, password: string, k: nat)
    requires UsernamesDistinct(users)
    requires k < |users| && Matches(users[k], username, password)
    ensures FindUser(users, username, password) == Some(users[k])
  {
    var r := FindUser(users, username, password);
    var j :| 0 <= j < |users| && users[j] == r.value && Matches(r.value, username, password)
             && forall m :: 0 <= m < j ==> !Matches(users[m], username, password);
    if j != k {
      assert false;
    }
  }

  /** The claims issued for an account: its username, its name, and the username again as id. */
  function ClaimsFor(a: Account): (c: Claims)
    ensures c.username == a.username && c.name == a.name && c.id == a.username
  {
    Claims(a.username, a.name, a.username)
  }

  /** `POST /api/auth/login`. */
  function Login(body: LoginBody, jwtSecretEnv: Option<string>, sign: Signer): (r: LoginResponse)
    ensures body.MalformedJson? ==> r == LoginFailed(InternalError, 500)
    ensures body.Credentials? && (!Present(body.username) || !Present(body.password))
            ==> r == LoginFailed(MissingFieldsError, 400)
    ensures body.Credentials? && Present(body.username) && Present(body.password) ==>
              (r.LoggedIn? <==> exists a :: a in Users && Matches(a, body.username.value, body.password.value))
    ensures r.LoginFailed? && body.Credentials? && Present(body.username) && Present(body.password)
            ==> r == LoginFailed(BadCredentialsError, 401)
    ensures r.LoggedIn? ==> exists a :: a in Users && Matches(a, r.username, body.password.value)
                                        && a.name == r.name && r.username == body.username.value
                                        && r.token == sign(ClaimsFor(a), Secret(jwtSecretEnv), TokenLifetime)
  {
    match body
    case MalformedJson => LoginFailed(InternalError, 500)
    case Credentials(username, password) =>
      if !Present(username) || !Present(password) then LoginFailed(MissingFieldsError, 400)
      else
        match FindUser(Users, username.value, password.value)
        case None => LoginFailed(BadCredentialsError, 401)
        case Some(a) =>
          LoggedIn(sign(ClaimsFor(a), Secret(jwtSecretEnv), TokenLifetime), a.name, a.username)
  }

  /** Logging in with an entry of the table succeeds and answers with that
      entry's name and username, and a token signed over that entry's claims. */
  lemma LoginWithTableEntry(k: nat, jwtSecretEnv: Option<string>, sign: Signer)
    requires k < |Users|
    ensures Login(Credentials(Some(Users[k].username), Some(Users[k].password)), jwtSecretEnv, sign)
            == LoggedIn(sign(ClaimsFor(Users[k]), Secret(jwtSecretEnv), TokenLifetime), Users[k].name, Users[k].username)
  {
    UsersDistinct();
    MatchIsUnique(Users, Users[k].username, Users[k].password, k);
  }

  /** A table username with any other non-empty password is refused with 401:
      no other entry carries that username, and its own entry has another password. */
  lemma WrongPasswordRejected(k: nat, p: string, jwtSecretEnv: Option<string>, sign: Signer)
    requires k < |Users| && p != "" && p != Users[k].password
    ensures Login(Credentials(Some(Users[k].username), Some(p)), jwtSecretEnv, sign)
            == LoginFailed(BadCredentialsError, 401)
  {
    UsersDistinct();
    forall m | 0 <= m < |Users|
      ensures !Matches(Users[m], Users[k].username, p)
    {
      if m < k {
        assert Users[m].username != Users[k].username;
      } else if k < m {
        assert Users[k].username != Users[m].username;
      }
    }
  }
}

=== FILE: storage.dfy ===
/** `uploadToGCS` (src/app/api/image/upload/route.ts): store a buffer in a
    Google Cloud Storage bucket and return its public URL, or fall back to an
    inline SVG placeholder when storage is unconfigured or the backend fails.
    The backend is an oracle: the caller says how the save and the
    make-public steps turn out. */
module Storage {
  import opened Js

  const PublicHost := "https://storage.googleapis.com/"
  const PlaceholderPrefix := "data:image/svg+xml;base64,"
  const ContentType := "image/png"

  /** The two environment variables the adapter reads. */
  datatype StorageEnv = StorageEnv(keyFile: Option<string>, bucketName: Option<string>)

  /** Both variables must be truthy for the real backend to be used. */
  predicate Configured(env: StorageEnv) {
    Present(env.keyFile) && Present(env.bucketName)
  }

  /** How the backend calls turn out: `blob.save` may throw, and so may
      `blob.makePublic` after a successful save (a missing key file or bucket
      surfaces as a failed save). */
  datatype BackendOutcome = Published | SaveFailed | MakePublicFailed

  /** Which of the adapter's two fallbacks wrote a placeholder: the one for
      missing configuration, or the one in the error handler. */
  datatype PlaceholderCause = NotConfigured | BackendFailed

  /** A URL the adapter hands back: a public object URL, or the inline SVG
      placeholder, which varies with its caption and with the fallback that
      wrote it. */
  datatype StoredUrl = PublicUrl(bucket: string, objectName: string) | Placeholder(caption: string, cause: PlaceholderCause)

  /** The two fallbacks write the same SVG template indented differently: the
      one for missing configuration by 8 spaces, the error handler's by 6. */
  function TemplateIndent(cause: PlaceholderCause): (n: nat)
    ensures n >= 2
  {
    match cause
    case NotConfigured => 8
    case BackendFailed => 6
  }

  /** `n` spaces. */
  function Spaces(n: nat): (r: string)
    ensures |r| == n && forall k :: 0 <= k < n ==> r[k] == ' '
  {
    if n == 0 then "" else " " + Spaces(n - 1)
  }

  const SvgOpenTag := "<" + "svg width=\"1024\" height=\"1024\" xmlns=\"http://www.w3.org/2000/svg\">"
  const SvgRectTag := "<rect width=\"100%\" height=\"100%\" fill=\"#E50900\"/>"
  const SvgTextTag :=
    "<text x=\"50%\" y=\"50%\" font-family=\"Arial\" font-size=\"48\" fill=\"white\" text-anchor=\"middle\" dy=\".3em\">"

  /** The SVG text of the placeholder, as the template literal spells it out:
      a line break, then each line indented from `indent`, the caption on its
      own line, and the closing line indented two spaces less. */
  function PlaceholderSvg(indent: nat, caption: string): (r: string)
    requires indent >= 2
    ensures |r| > indent + 1 && r[0] == '\n' && r[indent + 1] == '<'
    ensures forall k :: 1 <= k <= indent ==> r[k] == ' '
  {
    var head := "\n" + Spaces(indent);
    var body := SvgElement(indent, caption);
    assert forall k :: 1 <= k <= indent ==> (head + body)[k] == head[k] == Spaces(indent)[k - 1];
    head + body
  }

  /** The `<svg>` element of the placeholder and the closing line's indentation. */
  function SvgElement(indent: nat, caption: string): (r: string)
    requires indent >= 2
    ensures |r| > 0 && r[0] == '<'
  {
    SvgOpenTag + ("\n" + (Spaces(indent + 2) + (SvgRectTag + ("\n" + (Spaces(indent + 2) +
             (SvgTextTag + ("\n" + (Spaces(indent + 4) + (caption + ("\n" + (Spaces(indent + 2) + ("</text>\n" +
             (Spaces(indent) + ("</svg>\n" + Spaces(indent - 2)))))))))))))))
  }

  /** The URL as a string. A placeholder is the `data:` prefix followed by its
      SVG text; the base64 step between them is not modelled. */
  function Href(u: StoredUrl): (s: string)
    ensures s != ""
  {
    match u
    case PublicUrl(bucket, objectName) => PublicHost + bucket + "/" + objectName
    case Placeholder(caption, cause) => PlaceholderPrefix + PlaceholderSvg(TemplateIndent(cause), caption)
  }

  /** A write the adapter asked the backend to perform. */
  datatype BlobWrite = BlobWrite(bucket: string, objectName: string, bytes: seq<byte>, contentType: string)

  /** What one call of the adapter did: the URL returned, the write attempted
      (if any), and whether the object ended up stored in the bucket. */
  datatype Upload = Upload(url: StoredUrl, write: Option<BlobWrite>, stored: bool)

  /** The placeholder label: every character outside `[A-Za-z0-9]` becomes a space. */
  function SanitizeLabel(s: string): (r: string)
    ensures |r| == |s|
    ensures forall k :: 0 <= k < |s| ==> r[k] == (if IsAsciiAlnum(s[k]) then s[k] else ' ')
  {
    if s == [] then [] else [if IsAsciiAlnum(s[0]) then s[0] else ' '] + SanitizeLabel(s[1..])
  }

  /** The label keeps the filename's length, holds only ASCII letters, digits and
      spaces, keeps every letter and digit in place, and is a fixed point. */
  lemma SanitizeLabelProperties(s: string)
    ensures |SanitizeLabel(s)| == |s|
    ensures forall k :: 0 <= k < |s| ==> IsAsciiAlnum(SanitizeLabel(s)[k]) || SanitizeLabel(s)[k] == ' '
    ensures forall k :: 0 <= k < |s| && IsAsciiAlnum(s[k]) ==> SanitizeLabel(s)[k] == s[k]
    ensures SanitizeLabel(SanitizeLabel(s)) == SanitizeLabel(s)
  {
  }

  /** The placeholder a fallback writes for a filename. */
  function PlaceholderFor(filename: string, cause: PlaceholderCause): (u: StoredUrl)
    ensures u.Placeholder? && |u.caption| == |filename| && u.cause == cause
  {
    Placeholder(SanitizeLabel(filename), cause)
  }

  const GsScheme := "gs://"

  /** The name the storage library's `Bucket` keeps for the name it is given:
      a leading `gs://` is dropped, then every trailing `/`. The write and the
      public URL both use this name. */
  function BucketName(raw: string): (b: string)
    ensures var rest := if StartsWith(raw, GsScheme) then raw[|GsScheme|..] else raw;
            |b| <= |rest| && b == rest[..|b|]
    ensures b == [] || b[|b| - 1] != '/'
    ensures !StartsWith(raw, GsScheme) && (raw == [] || raw[|raw| - 1] != '/') ==> b == raw
  {
    DropTrailingSlashes(if StartsWith(raw, GsScheme) then raw[|GsScheme|..] else raw)
  }

  function DropTrailingSlashes(s: string): (r: string)
    ensures |r| <= |s| && r == s[..|r|]
    ensures r == [] || r[|r| - 1] != '/'
    ensures s == [] || s[|s| - 1] != '/' ==> r == s
  {
    if s != [] && s[|s| - 1] == '/' then DropTrailingSlashes(s[..|s| - 1]) else s
  }

  /** Only slashes are dropped from the end. */
  lemma {:induction false} DropTrailingSlashesCutsSlashes(s: string)
    ensures forall k :: |DropTrailingSlashes(s)| <= k < |s| ==> s[k] == '/'
    decreases |s|
  {
    if s != [] && s[|s| - 1] == '/' {
      DropTrailingSlashesCutsSlashes(s[..|s| - 1]);
      assert forall k :: 0 <= k < |s| - 1 ==> s[k] == s[..|s| - 1][k];
    }
  }

  /** Any number of slashes after a name without a trailing one are dropped. */
  lemma {:induction false} DropTrailingSlashesAppend(b: string, n: nat)
    requires b == [] || b[|b| - 1] != '/'
    ensures DropTrailingSlashes(b + seq(n, _ => '/')) == b
    decreases n
  {
    if n == 0 {
      assert b + seq(n, _ => '/') == b;
    } else {
      var t := b + seq(n, _ => '/');
      assert t[..|t| - 1] == b + seq(n - 1, _ => '/');
      DropTrailingSlashesAppend(b, n - 1);
    }
  }

  /** `uploadToGCS(file, filename)`. It never fails: every path ends in a URL. */
  function UploadToGcs(env: StorageEnv, backend: BackendOutcome, file: seq<byte>, filename: string): (r: Upload)
    ensures !Configured(env) ==> r.write.None? && !r.stored
    ensures Configured(env) ==> r.write == Some(BlobWrite(BucketName(env.bucketName.value), filename, file, ContentType))
    ensures r.url.PublicUrl? <==> Configured(env) && backend == Published
    ensures r.url.PublicUrl? ==> Href(r.url) == PublicHost + BucketName(env.bucketName.value) + "/" + filename
    ensures r.url.Placeholder? ==> r.url == PlaceholderFor(filename, if Configured(env) then BackendFailed else NotConfigured)
    ensures r.stored <==> Configured(env) && backend != SaveFailed
  {
    if !Configured(env) then
      Upload(PlaceholderFor(filename, NotConfigured), None, false)
    else
      var bucket := BucketName(env.bucketName.value);
      var write := Some(BlobWrite(bucket, filename, file, ContentType));
      match backend
      case Published => Upload(PublicUrl(bucket, filename), write, true)
      case SaveFailed => Upload(PlaceholderFor(filename, BackendFailed), write, false)
      case MakePublicFailed => Upload(PlaceholderFor(filename, BackendFailed), write, true)
  }

  /** A bucket named with the `gs://` scheme or trailing slashes is the bucket
      of the bare name: the adapter writes to it and answers its URL. */
  lemma {:induction false} BucketNameForms(env: StorageEnv, backend: BackendOutcome, file: seq<byte>, filename: string,
                                           b: string, n: nat)
    requires b != "" && b[|b| - 1] != '/' && !StartsWith(b, GsScheme)
    ensures var spelled := env.(bucketName := Some(GsScheme + b + seq(n, _ => '/')));
            UploadToGcs(spelled, backend, file, filename) == UploadToGcs(env.(bucketName := Some(b)), backend, file, filename)
  {
    var raw := GsScheme + b + seq(n, _ => '/');
    assert StartsWith(raw, GsScheme) by { assert raw[..|GsScheme|] == GsScheme; }
    assert raw[|GsScheme|..] == b + seq(n, _ => '/');
    DropTrailingSlashesAppend(b, n);
    assert BucketName(raw) == b;
    assert BucketName(b) == b;
  }

  /** The returned string tells the two kinds of URL apart: a public URL is an
      `https:` URL on the storage host, a placeholder is an SVG `data:` URL. */
  lemma HrefKinds(u: StoredUrl)
    ensures u.PublicUrl? <==> StartsWith(Href(u), PublicHost)
    ensures u.Placeholder? <==> StartsWith(Href(u), PlaceholderPrefix)
  {
    var h := Href(u);
    if u.PublicUrl? {
      assert h[..|PublicHost|] == PublicHost;
      assert h[0] == 'h';
      assert !StartsWith(h, PlaceholderPrefix);
    } else {
      assert h[..|PlaceholderPrefix|] == PlaceholderPrefix;
      assert h[0] == 'd';
      assert !StartsWith(h, PublicHost);
    }
  }

  /** A public URL gives back its bucket and object name when the bucket name has no `/`. */
  lemma PublicHrefInjective(b1: string, o1: string, b2: string, o2: string)
    requires '/' !in b1 && '/' !in b2
    requires Href(PublicUrl(b1, o1)) == Href(PublicUrl(b2, o2))
    ensures b1 == b2 && o1 == o2
  {
    var h1 := Href(PublicUrl(b1, o1));
    var n := |PublicHost|;
    assert h1 == PublicHost + b1 + "/" + o1;
    assert forall k :: 0 <= k < |b1| ==> h1[n + k] == b1[k];
    assert h1[n + |b1|] == '/';
    assert forall k :: 0 <= k < |b2| ==> h1[n + k] == b2[k];
    assert h1[n + |b2|] == '/';
    if |b1| != |b2| {
      assert false;
    }
    assert b1 == h1[n..n + |b1|] == b2;
    assert o1 == h1[n + |b1| + 1..] == o2;
  }

  /** Without configuration nothing reaches the backend and the result is the
      placeholder, whatever the backend would have done. */
  lemma UnconfiguredIsPlaceholder(env: StorageEnv, backend: BackendOutcome, file: seq<byte>, filename: string)
    requires !Present(env.keyFile) || !Present(env.bucketName)
    ensures UploadToGcs(env, backend, file, filename) == Upload(PlaceholderFor(filename, NotConfigured), None, false)
    ensures StartsWith(Href(UploadToGcs(env, backend, file, filename).url), PlaceholderPrefix)
  {
    HrefKinds(PlaceholderFor(filename, NotConfigured));
  }

  /** A backend error degrades to a placeholder with the same caption as the
      one an unconfigured adapter returns, but not to the same URL: the two
      fallbacks indent their SVG differently. */
  lemma BackendErrorPlaceholderDiffers(env: StorageEnv, unconfigured: StorageEnv, backend: BackendOutcome,
                                       file: seq<byte>, filename: string)
    requires Configured(env) && !Configured(unconfigured)
    requires backend != Published
    ensures var failed := UploadToGcs(env, backend, file, filename).url;
            var missing := UploadToGcs(unconfigured, Published, file, filename).url;
            && failed.Placeholder? && missing.Placeholder?
            && failed.caption == missing.caption
            && Href(failed) != Href(missing)
  {
    PlaceholderCausesDiffer(SanitizeLabel(filename));
  }

  /** The two fallbacks' placeholders for one caption differ in the eighth
      character of their SVG text: `<` after 6 spaces, a seventh space before 8. */
  lemma PlaceholderCausesDiffer(caption: string)
    ensures Href(Placeholder(caption, BackendFailed)) != Href(Placeholder(caption, NotConfigured))
  {
    var failed := PlaceholderSvg(6, caption);
    var missing := PlaceholderSvg(8, caption);
    assert failed[7] == '<' && missing[7] == ' ';
    assert (PlaceholderPrefix + failed)[|PlaceholderPrefix| + 7] == failed[7];
    assert (PlaceholderPrefix + missing)[|PlaceholderPrefix| + 7] == missing[7];
  }

  /** When make-public fails the object stays in the bucket although the
      caller receives the placeholder: a stored but unreferenced object. */
  lemma MakePublicFailureLeavesObject(env: StorageEnv, file: seq<byte>, filename: string)
    requires Configured(env)
    ensures UploadToGcs(env, MakePublicFailed, file, filename).stored
    ensures UploadToGcs(env, MakePublicFailed, file, filename).url.Placeholder?
  {
  }
}
